=== FILE: README.md ===
# ChatCast core, modelled in Dafny

ChatCast turns a shared chatbot conversation link into something to read or keep.
It has three parts, and this project models each of them.

- **The PDF endpoint** (`POST` in `src/app/api/scrape/route.ts`).
  - It checks the request body in a fixed order: a url is required, the url must parse, and a non-empty paper format must be one of `A4`, `Letter` or `Legal`.
  - A headless browser loads the page. The code reads the page title (falling back to `Downloaded Content`) and the message elements, in document order.
  - Each element is wrapped in a role-specific block with an icon. The blocks go into an HTML document with a stylesheet themed by `darkMode`.
  - The document is printed to PDF with backgrounds on and 20px margins.
  - The answer is the PDF, under a file name made by `sanitizeFileName`. Every thrown failure answers 500 with the error's message.
- **The conversation endpoint** (`POST` in `src/app/api/fetchData/route.ts`).
  - It fetches the shared page and keeps the last inline script that holds `window.__remixContext`.
  - It captures the `linear_conversation` array with a lazy regular expression anchored on the key `"has_user_editable_context"` that follows it.
  - It parses the array. Items that carry message text and are not system turns are rendered as `User: …` or `Assistant: …`, and any other role is dropped.
  - Error answers: 400 when the url is missing, 404 when the marker or the array is not found, 500 for any other failure.
- **The conversation view's text formatting** (`formatMessage` and `isUser` in `src/app/generate/page.tsx`).
  - A message is split into lines.
  - Each line is shown as a header, a bold paragraph, a bullet or a plain paragraph, tried in that order.
  - A role counts as the user's when its lower-cased form is `user`.

The model has one module per concern:

| module | what it holds |
|---|---|
| `Results` | `Option` and `Result`. |
| `Strings` | The JavaScript string primitives the code relies on: `\s` white space, `trim`, `split`/`join` on one character, `includes`, and `toString` of a length. |
| `FileName` | `sanitizeFileName`. |
| `Document` | The stylesheet, the message blocks and the HTML document. |
| `ScrapeRoute` | The PDF endpoint. |
| `RemixExtract` | The script scan and the regular-expression capture. |
| `Normalize` | The filter/map/filter over the parsed items. |
| `FetchRoute` | The conversation endpoint. |
| `MessageFormat` | `formatMessage` and `isUser`. |

Foreign code enters as parameters. What each one yields depends on what the code does with its failures:

| foreign code | parameter | what it yields |
|---|---|---|
| the headless browser | the functions `Browser.load` and `Browser.printPdf` | A `Result`: the page or the PDF, or the value thrown, whose message the PDF endpoint reports. |
| `request.json` in the PDF endpoint | a `Result` argument of `ScrapeRoute.Post` | The body object, or the value thrown, which can also stand for the `TypeError` from reading `url` of a `null` body. |
| `new URL` | the function `isValidUrl` | A `bool`, because `validateUrl` absorbs the throw. |
| `axios.get` with the cheerio listing of script bodies | the function `fetchScripts` | The script bodies, or `None` when it throws. The conversation endpoint answers every such failure with one fixed message, so the thrown value is not kept. |
| `JSON.parse` | the function `parseItems` | The items, or `None` when it throws, for the same reason. |

Each partial operation is given a partner lemma. The partner is one of these:

- an inverse: split/join, decimal read-back, or putting the bold markers back;
- a reference definition: `Turns` for the filter/map/filter pipeline, and the leftmost-lazy span for the capture;
- a property the operation keeps: the character set and bounds of file names, or the order of blocks.

## Behaviour of the code worth knowing

- A sanitised name can have 259 characters: the code cuts to 255 and then appends `.pdf` (`FileName.SanitizeReaches259`).
- Sanitising a sanitised name gives it back when it has at most 255 characters (`FileName.SanitizeIdempotentUpTo255`), but not beyond: 254 `a`s gain a second `.` (`FileName.SanitizeNotIdempotentBeyond255`).
- A conversation with no user or assistant turn answers 200 with `[]`.
- A user turn whose `parts` is empty is kept and renders as `User: ` (`Normalize.EmptyPartsKept`).
- The conversation endpoint answers an array of strings such as `User: …`.
- A missing array answers 404 with `Linear conversation not found`.
- The capture is lazy and not bracket-balanced: it ends at the first `]` followed by the sibling key (`RemixExtract.UnbalancedCaptureExample`).
- A `paperFormat` of `""` is falsy, so it passes validation. Because it is not `undefined`, it reaches the printer as `""` rather than `A4`.

## Model

| member | source | states |
|---|---|---|
| Strings.SpaceRun | src/app/api/fetchData/route.ts:39 | What a greedy `\s*` consumes from a position: only white space, and it stops at the first character that is not white space. |
| Strings.Trim | src/app/generate/page.tsx:111 | `trim()` gives a slice of the string with only white space cut from both ends, and the result neither begins nor ends with white space. |
| Strings.TrimUnpadded | src/app/generate/page.tsx:111 | A string that neither begins nor ends with white space is its own trim. |
| Strings.Split | src/app/generate/page.tsx:74 | `split("\n")` gives one more piece than there are separators, and no piece contains the separator. |
| Strings.JoinSplit | src/app/generate/page.tsx:74 | Joining the pieces of a split with the separator restores the string. |
| Strings.SplitJoin | src/app/api/fetchData/route.ts:56 | Splitting a join of separator-free pieces (at least one) gives the pieces back. |
| Strings.Join | src/app/api/fetchData/route.ts:56 | `join(' ')` of the parts; `Strings.JoinSplit` and `Strings.SplitJoin` state it as the inverse of `Strings.Split` on separator-free pieces. |
| Strings.Decimal | src/app/api/scrape/route.ts:252 | `toString()` of a length is a non-empty string of digits without a leading zero. |
| Strings.DecimalRoundTrip | src/app/api/scrape/route.ts:252 | Reading the decimal numeral of `n` back gives `n`. |
| FileName.ReplaceDisallowed | src/app/api/scrape/route.ts:23 | The replacement keeps the length and every allowed character, turns every other character into `_`, and leaves only allowed characters. |
| FileName.SanitizeFileName | src/app/api/scrape/route.ts:18-28 | An empty name gives `downloaded-content.pdf`. Any other name gives a result that ends in `.pdf`, has 4 to 259 allowed characters, and agrees character by character with the sanitised input up to the 255 cut. Its length is the cut length when the cut input ends in `.pdf`, and the cut length plus 4 exactly when it does not. |
| FileName.DefaultNameAllowed | src/app/api/scrape/route.ts:19 | The default name ends in `.pdf` and has allowed characters only. |
| FileName.StemEndsWithPdf | src/app/api/scrape/route.ts:22-27 | The cut replacement ends in `.pdf` exactly when the cut input does. |
| FileName.ReplaceAllowedIsIdentity | src/app/api/scrape/route.ts:23 | The replacement leaves a string of allowed characters unchanged. |
| FileName.SanitizeAllowedName | src/app/api/scrape/route.ts:22-27 | On a non-empty name of allowed characters, sanitising gives the 255 cut, with `.pdf` appended unless the cut already ends in it. |
| FileName.SanitizeIdempotentUpTo255 | src/app/api/scrape/route.ts:18-28 | Sanitising a sanitised name of at most 255 characters gives it back. |
| FileName.SanitizeNotIdempotentBeyond255 | src/app/api/scrape/route.ts:18-28 | 254 `a`s sanitise to `a…a.pdf`. Sanitising that again gives `a…a..pdf`, which differs. |
| FileName.SanitizeReaches259 | src/app/api/scrape/route.ts:14-27 | 300 `a`s sanitise to a name of 255 + 4 characters. |
| FileName.SanitizeExample | src/app/api/scrape/route.ts:22-27 | `My Report!!.txt` sanitises to `My_Report__.txt.pdf`. |
| Document.ModeChangesEveryToken | src/app/api/scrape/route.ts:39-88 | Switching `darkMode` changes each of the eleven interpolated colours. |
| Document.PaletteFor | src/app/api/scrape/route.ts:46-84 | The eleven colours the mode selects; `Document.ModeChangesEveryToken` and `Document.BubblesStandOut` state how the two palettes differ. |
| Document.BubblesStandOut | src/app/api/scrape/route.ts:42-88 | In either mode, the user bubble's background differs from the assistant bubble's and from the page's. Every rule's text colour differs from its background. |
| Document.SheetFor | src/app/api/scrape/route.ts:39-103 | The stylesheet opens with `<style>` and closes with `</style>`. It contains the body, `h1`, `pre`, `strong`, `.user-message` and `.ai-message` rules, each filled with the palette's colours. |
| Document.Stylesheet | src/app/api/scrape/route.ts:39-103 | `generateStylesheet(darkMode)` is `Document.SheetFor` of the mode's palette, so its contract holds with the colours of `Document.PaletteFor`. |
| Document.BubbleFor | src/app/api/scrape/route.ts:137-147 | Only the exact role `user` gets the user style. |
| Document.OpenTagsExclusive | src/app/api/scrape/route.ts:146-147 | No block can start with both the user and the assistant opening tag. |
| Document.Wrap | src/app/api/scrape/route.ts:136-157 | A block starts with the user tag exactly when the role is `user`, and with the assistant tag exactly when it is not. It contains the role's icon and the element's markup, and it ends with `</div>`. |
| Document.WrapAll | src/app/api/scrape/route.ts:134-158 | The content is empty exactly when there are no message elements. |
| Document.WrapAllAppend | src/app/api/scrape/route.ts:136-158 | The content of two runs of elements is the concatenation of their contents. |
| Document.BlocksInOrder | src/app/api/scrape/route.ts:136-158 | Element `k`'s block sits at its offset in the content and ends where block `k + 1` starts. |
| Document.PageTitle | src/app/api/scrape/route.ts:127-129 | The title is the `<title>` text when that is non-empty, else `Downloaded Content`, so it is never empty. |
| Document.HtmlDocument | src/app/api/scrape/route.ts:169-182 | The document holds the title tag before the stylesheet, and the `<h1>` heading before the content. |
| ScrapeRoute.Validate | src/app/api/scrape/route.ts:213-232 | Missing url, unparseable url and disallowed non-empty format are rejected in that order, with their messages. Validation passes exactly when none applies. On success the url is kept, `darkMode` holds only when it was `true`, and an absent format becomes `A4` (the defaults of line 114). |
| ScrapeRoute.PrintPage | src/app/api/scrape/route.ts:163-202 | A page without message elements throws `No content found on the page`. Otherwise the result succeeds exactly when printing succeeds: a print failure passes on the value the printer threw, and a success is the printed buffer with the page title. |
| ScrapeRoute.GeneratePdf | src/app/api/scrape/route.ts:106-206 | `generatePDF`; its behaviour is stated by `ScrapeRoute.GeneratePdfRefuses`, `ScrapeRoute.GeneratePdfRenders`, `ScrapeRoute.GeneratePdfPrintsPage` and `ScrapeRoute.GeneratePdfTitle`. |
| ScrapeRoute.GeneratePdfRefuses | src/app/api/scrape/route.ts:120-197 | A load failure is passed on, a loaded page without message elements is refused before printing, and a print failure passes on the value the printer threw. |
| ScrapeRoute.GeneratePdfRenders | src/app/api/scrape/route.ts:127-202 | A page that loads with message elements and prints gives exactly the printer's PDF of its synthesised document, in the requested format, under the page's title. |
| ScrapeRoute.GeneratePdfPrintsPage | src/app/api/scrape/route.ts:167-200 | A rendered PDF comes from a page that loaded with message elements. It is the printer's output for that page's synthesised document, with the requested format. |
| ScrapeRoute.GeneratePdfTitle | src/app/api/scrape/route.ts:127-202 | A rendered PDF carries the loaded page's title. |
| ScrapeRoute.Post | src/app/api/scrape/route.ts:209-261 | An unreadable body and every thrown failure answer 500 with the error's message. Failed validation answers 400 with its message, and only it does. A PDF answer is given exactly when validation and rendering succeed. It is a 200 whose body is the buffer and whose headers name the download. |
| ScrapeRoute.RejectedRequestNeverRenders | src/app/api/scrape/route.ts:213-235 | A request that fails validation gets the same 400 answer whatever the browser would do. |
| ScrapeRoute.PdfHeadersDescribeFile | src/app/api/scrape/route.ts:247-253 | The content type is `application/pdf`. The disposition names a file ending in `.pdf` with no `"`, of at most 259 characters. The length header is digits that read back as the body length. |
| ScrapeRoute.PdfHeaders | src/app/api/scrape/route.ts:249-253 | The three response headers; `ScrapeRoute.PdfHeadersDescribeFile` states what they carry. |
| ScrapeRoute.DownloadNameOfTitle | src/app/api/scrape/route.ts:241-244 | The download name sanitises the request's file name when one is given, and the (non-empty) title otherwise. |
| ScrapeRoute.DownloadName | src/app/api/scrape/route.ts:242-244 | The sanitised download name; `ScrapeRoute.DownloadNameOfTitle` states which string it sanitises. |
| ScrapeRoute.CustomFileNameExample | src/app/api/scrape/route.ts:241-251 | The file name `My Report!!.txt` gives the disposition `attachment; filename="My_Report__.txt.pdf"`. |
| RemixExtract.SelectContext | src/app/api/fetchData/route.ts:25-32 | The scan yields the empty string exactly when no script holds the marker. Otherwise it yields the last script that holds it. |
| RemixExtract.FindClose | src/app/api/fetchData/route.ts:39 | The closing search finds the first `]` followed by `,`, white space and `"has_user_editable_context"`, or reports that there is none. |
| RemixExtract.MatchFrom | src/app/api/fetchData/route.ts:39 | `match` finds the leftmost start position from which the expression matches, or reports that there is none. |
| RemixExtract.CaptureFailsIffNoMatch | src/app/api/fetchData/route.ts:39-43 | The capture fails (the 404 branch) exactly when the expression matches from no position. |
| RemixExtract.Capture | src/app/api/fetchData/route.ts:39 | `linearConversationMatch[1]`; `RemixExtract.CaptureFailsIffNoMatch`, `RemixExtract.CaptureIsLeftmostLazy` and `RemixExtract.CaptureIsBracketed` state when it fails and what it captures. |
| RemixExtract.CaptureIsLeftmostLazy | src/app/api/fetchData/route.ts:39 | A capture runs from the `[` of the leftmost match to the first accepted `]` after it. |
| RemixExtract.CaptureIsBracketed | src/app/api/fetchData/route.ts:39 | A capture opens with `[` and closes with `]`, and in the script it is followed by `,`, optional white space and `"has_user_editable_context"`. |
| RemixExtract.UnbalancedCaptureExample | src/app/api/fetchData/route.ts:39 | The text `[1]],"has_user_editable_context"` after the key is captured as `[1]]`: the capture is not bracket-balanced. |
| Normalize.KeepItems | src/app/api/fetchData/route.ts:47-53 | The first filter throws exactly when some item throws. Otherwise it keeps only items of the list that have message text and are not system turns, keeps every such item, and never lengthens the list. |
| Normalize.KeepOne | src/app/api/fetchData/route.ts:47-53 | On one item the filter throws, or keeps the item exactly when it passes. |
| Normalize.KeepItemsAppend | src/app/api/fetchData/route.ts:47-53 | Filtering two runs of items succeeds exactly when filtering each does, and gives their results joined in order. |
| Normalize.Messages | src/app/api/fetchData/route.ts:47-64 | The filter, map and filter pipeline; its meaning is stated by `Normalize.MessagesAreTurns`: it throws exactly when an item throws, and otherwise gives `Turns` of the items. |
| Normalize.MessagesAreTurns | src/app/api/fetchData/route.ts:47-64 | The pipeline throws exactly when some item throws. Otherwise it gives each item's user or assistant turn, in order. |
| Normalize.TurnsAppend | src/app/api/fetchData/route.ts:47-64 | The turns of two runs of items are the concatenation of their turns. |
| Normalize.TurnsShape | src/app/api/fetchData/route.ts:54-63 | Every turn starts with `User: ` or `Assistant: `, and there are no more turns than items. |
| Normalize.TurnsAtPositions | src/app/api/fetchData/route.ts:47-64 | Turn `k` is the rendering of the item at the `k`-th turn-giving position. |
| Normalize.TurnPositionsIncrease | src/app/api/fetchData/route.ts:47-64 | Those positions strictly increase, so the output keeps the source order. |
| Normalize.OtherItemsGiveNoTurn | src/app/api/fetchData/route.ts:47-64 | An item at no turn position contributes nothing. |
| Normalize.SystemTurnsDropped | src/app/api/fetchData/route.ts:52 | A system turn never reaches the output. |
| Normalize.EmptyPartsKept | src/app/api/fetchData/route.ts:51-58 | A user turn with empty `parts` is kept, as `User: `. |
| Normalize.ThreeTurnExample | src/app/api/fetchData/route.ts:47-64 | A system, a user and an assistant item give exactly the user's and then the assistant's message. |
| Normalize.MissingAuthorThrows | src/app/api/fetchData/route.ts:48-52 | An item with message text but no author makes the whole pipeline throw, wherever it stands. |
| FetchRoute.Answer | src/app/api/fetchData/route.ts:39-69 | A failed capture answers 404 `Linear conversation not found`. The turns are answered exactly when the capture succeeds, it parses, and no item throws. After a successful capture, a parse failure or a throwing item answers 500 `Failed to fetch content`, and 404 is never answered. |
| FetchRoute.Post | src/app/api/fetchData/route.ts:16-70 | A missing url answers 400, and only it does. A failed fetch answers 500. No marked script answers 404 `Remix context not found`. Otherwise the answer is `Answer` on the last marked script. |
| FetchRoute.LastMarkedUnique | src/app/api/fetchData/route.ts:27-32 | At most one script is the last one holding the marker. |
| MessageFormat.CloseFrom | src/app/generate/page.tsx:100 | The lazy group ends at the first closing `**` reached without crossing a line terminator, if there is one. |
| MessageFormat.PairFrom | src/app/generate/page.tsx:100 | The search yields the leftmost opening `**` that has a closing one, and the first closing `**` after it. With no result, no pair exists. |
| MessageFormat.PairFromFindsAny | src/app/generate/page.tsx:100 | The search succeeds exactly when the line holds a bold pair. |
| MessageFormat.HasBold | src/app/generate/page.tsx:100 | The bold test holds exactly when the line holds a bold pair. |
| MessageFormat.UnwrapFirstBoldSpec | src/app/generate/page.tsx:101 | A line without a pair is unchanged. Otherwise only the markers of the first pair are removed, and later pairs stay. |
| MessageFormat.UnwrapFirstBold | src/app/generate/page.tsx:101 | `replace(/\*\*(.*?)\*\*/, "$1")`; `MessageFormat.UnwrapFirstBoldSpec` and `MessageFormat.UnwrapRestores` state its effect. |
| MessageFormat.UnwrapRestores | src/app/generate/page.tsx:101 | Unwrapping shortens the line by 4, and putting the two markers back where the first pair stood restores it. |
| MessageFormat.FirstPairUnique | src/app/generate/page.tsx:100-101 | The match the expression takes is unique. |
| MessageFormat.StripBulletPrefix | src/app/generate/page.tsx:111 | A leading hyphen is removed together with the white space around it. A line that does not begin so is left alone. The result is a suffix of the line. |
| MessageFormat.HeaderText | src/app/generate/page.tsx:91 | A header loses `###` and only the white space after it, so its text does not begin with white space. |
| MessageFormat.Classify | src/app/generate/page.tsx:89-120 | A line is a header exactly when it starts with `###`. It is bold exactly when not a header and holding a pair, and a bullet exactly when neither and containing `- `. Each kind shows its text as the source computes it. |
| MessageFormat.FormatMessage | src/app/generate/page.tsx:72-122 | One block per line of `split("\n")`, in order: one more than the newlines. |
| MessageFormat.PlainMessageShownAsWritten | src/app/generate/page.tsx:74-120 | A message whose lines are all plain is shown line for line as written: the lines joined back give the message. |
| MessageFormat.NoStarNoPair | src/app/generate/page.tsx:100 | A line without `*` is never bold. |
| MessageFormat.TripleStarNotBold | src/app/generate/page.tsx:100-120 | `***` holds no pair and is shown as plain text. |
| MessageFormat.BulletLine | src/app/generate/page.tsx:109-117 | A line that does not open with `#`, holds no `*` and contains `- ` is a bullet. |
| MessageFormat.InnerHyphenExample | src/app/generate/page.tsx:110-111 | `a - b` is a bullet showing `a - b`: an inner hyphen is not stripped. |
| MessageFormat.LeadingHyphenExample | src/app/generate/page.tsx:110-111 | ` - item` is a bullet showing `item`. |
| MessageFormat.FirstPairOnlyExample | src/app/generate/page.tsx:100-101 | `**a** b **c**` is bold, showing `a b **c**`. |
| MessageFormat.HeaderExample | src/app/generate/page.tsx:90-91 | `### **Plan** now` is a header showing `Plan now`. |
| MessageFormat.IsUserCaseVariants | src/app/generate/page.tsx:209 | A role is the user's exactly when it is one of the sixteen case variants of `user`. |
| MessageFormat.IsUser | src/app/generate/page.tsx:209 | `role.toLowerCase() === "user"`. It folds ASCII letters only. That is exact here, because no non-ASCII character lower-cases to `u`, `s`, `e` or `r`. `MessageFormat.IsUserCaseVariants` states which roles it accepts. |

## Left out

- **The browser.** The lifecycle of the headless browser is not modelled: launch, contexts, pages, `browser.close()` in `finally`, the `networkidle` wait and the 30-second navigation timeout. `Browser.load` and `Browser.printPdf` stand for all of it.
- **The DOM work inside `page.evaluate`.** The attribute query, the clone, the button removal and the `innerHTML`/`outerHTML` serialisation are not modelled. An `Element` carries its role and its markup with the buttons already removed. The wrapper's `outerHTML` is taken to be the literal template text, without the browser re-parsing and re-serialising it.
- **The network and the parsers.** The HTTP fetch, cheerio, `JSON.parse` and `new URL` are foreign. They enter as parameters.
- **A failed `request.json` in the conversation endpoint.** It happens outside the `try`, so it rejects unhandled and no answer is modelled. The endpoint's model takes the already-read `url`.
- **A body that is JSON but not an object.** The model's body is always an object.
  - In the PDF endpoint, a `null` body makes reading `body.url` (src/app/api/scrape/route.ts:214) throw a `TypeError` inside the `try`, so it answers 500 with that error's message. The model gets the same answer only when the caller passes the `TypeError` as the `Failure` request argument. A number, string or array body has no `url` and answers 400.
  - In the conversation endpoint, destructuring a `null` body (src/app/api/fetchData/route.ts:17) throws outside the `try`, so it rejects unhandled and no answer is modelled, as for a failed `request.json`.
- **Fields of an unexpected type.** JSON values of other types than the code expects are not modelled:
  - a non-string `paperFormat`, `fileName` or `url`;
  - a non-boolean `darkMode`;
  - a `parts` value that is truthy but not an array of strings.
  A role that is not a string is modelled as absent, which the code also drops.
- **A `null` paper format.** It passes validation like an absent one. The default of `generatePDF` replaces only `undefined`, so the code hands `null` to `page.pdf` as the format, where the model's absent format becomes `A4`.
- **Characters.** Characters are Unicode scalar values, where JavaScript strings are UTF-16 code units. Outside the Basic Multilingual Plane this changes three things: how `slice(0, 255)` counts, what the regular-expression `.` matches, and `FileName.ReplaceDisallowed`. Without the `u` flag, the code's replacement turns each surrogate half into `_`, so an emoji becomes `__` where the model gives `_`.
- **Rendering.** JSX, React keys and class names are not modelled. `formatMessage` yields the kind and text of each block.
- **Logging.** `console.error` is not modelled.
- Document.SheetFor: states the frame and the six coloured rules it contains, not their order or the fixed rules' text.
- Document.Wrap: states the block's opening tag, its icon, its markup and its closing tag, not the whole text of the block.
- Document.HtmlDocument: states where the title, stylesheet, heading and content sit relative to each other, not the full text of the document.
- Normalize.KeepItems: its contract states which items throw, that only passing items are kept and that every passing item is; the order it keeps them in is stated by `Normalize.KeepItemsAppend` with `Normalize.KeepOne`, and the whole pipeline's reading by `Normalize.MessagesAreTurns`.
- Strings.SplitJoin: needs at least one piece, because an empty list joins to `""` and that splits to `[""]`.

=== FILE: document.dfy ===
/** The pure half of `generatePDF` in the scrape route: the themed stylesheet
    (`generateStylesheet`), the wrapping of each rendered message element into a
    role-specific block, the page-title fallback and the assembly of the HTML
    document that is handed to the headless browser for printing. */
module Document {
  import opened Results
  import opened Strings

  const DefaultTitle := "Downloaded Content"

  /** The eleven colour tokens the stylesheet interpolates. */
  datatype Palette = Palette(
    bodyText: string, bodyBackground: string,
    headingText: string, headingRule: string,
    codeBackground: string, codeText: string,
    strongText: string,
    userBackground: string, userText: string,
    aiBackground: string, aiText: string)

  /** Each token takes its dark value when `darkMode` holds and its light value otherwise. */
  function PaletteFor(darkMode: bool): Palette {
    if darkMode then
      Palette("#e0e0e0", "#333333", "#ffffff", "#444444", "#1a1a1a", "#00ff00",
              "#ffffff", "#17472D", "#ffffff", "#1a1a1a", "#e0e0e0")
    else
      Palette("#333333", "#ffffff", "#000000", "#eeeeee", "#f5f5f5", "#333333",
              "#000000", "#e8f5e9", "#000000", "#f5f5f5", "#333333")
  }

  /** Switching the mode changes every colour token. */
  lemma ModeChangesEveryToken()
    ensures var d, l := PaletteFor(true), PaletteFor(false);
      && d.bodyText != l.bodyText && d.bodyBackground != l.bodyBackground
      && d.headingText != l.headingText && d.headingRule != l.headingRule
      && d.codeBackground != l.codeBackground && d.codeText != l.codeText
      && d.strongText != l.strongText
      && d.userBackground != l.userBackground && d.userText != l.userText
      && d.aiBackground != l.aiBackground && d.aiText != l.aiText
  {
  }

  /** In either mode the user bubble stands out from the assistant bubble and from
      the page, and every rule's text colour differs from the background behind it. */
  lemma BubblesStandOut(darkMode: bool)
    ensures var p := PaletteFor(darkMode);
      && p.userBackground != p.aiBackground
      && p.userBackground != p.bodyBackground
      && p.aiBackground != p.bodyBackground
      && p.bodyText != p.bodyBackground
      && p.headingText != p.bodyBackground
      && p.codeText != p.codeBackground
      && p.userText != p.userBackground
      && p.aiText != p.aiBackground
  {
  }

  function BodyRule(p: Palette): string {
    "      body { \n"
    + "        font-family: Arial, sans-serif; \n"
    + "        padding: 20px; \n"
    + "        line-height: 1.6;\n"
    + "        color: " + p.bodyText + ";\n"
    + "        background-color: " + p.bodyBackground + ";\n"
    + "      }\n"
  }

  function HeadingRule(p: Palette): string {
    "      h1 {\n"
    + "        color: " + p.headingText + ";\n"
    + "        border-bottom: 1px solid " + p.headingRule + ";\n"
    + "        padding-bottom: 10px;\n"
    + "      }\n"
  }

  function PreRule(p: Palette): string {
    "      pre {\n"
    + "        background-color: " + p.codeBackground + ";\n"
    + "        color: " + p.codeText + ";\n"
    + "        padding: 10px;\n"
    + "        border-radius: 5px;\n"
    + "        overflow-x: auto;\n"
    + "      }\n"
  }

  /** The rules whose text does not depend on the mode. */
  const FixedRules :=
    "      code {\n"
    + "        font-family: 'Courier New', Courier, monospace;\n"
    + "      }\n"
    + "      a {\n"
    + "        color: #3498db;\n"
    + "      }\n"
    + "      p, ul, ol {\n"
    + "        margin-bottom: 15px;\n"
    + "      }\n"

  function StrongRule(p: Palette): string {
    "      strong, b {\n"
    + "        color: " + p.strongText + ";\n"
    + "      }\n"
  }

  function UserRule(p: Palette): string {
    "      .user-message {\n"
    + "        background-color: " + p.userBackground + "; \n"
    + "        color: " + p.userText + ";\n"
    + "        margin-bottom: 15px;\n"
    + "        padding: 10px;\n"
    + "        border-radius: 10px;\n"
    + "        display: flex;\n"
    + "        align-items: flex-start;\n"
    + "      }\n"
  }

  function AiRule(p: Palette): string {
    "      .ai-message {\n"
    + "        background-color: " + p.aiBackground + ";\n"
    + "        color: " + p.aiText + ";\n"
    + "        margin-bottom: 15px;\n"
    + "        padding: 10px;\n"
    + "        border-radius: 10px;\n"
    + "      }\n"
  }

  const LayoutRules :=
    "      .user-icon {\n"
    + "        font-size: 24px;\n"
    + "        margin-right: 10px;\n"
    + "      }\n"
    + "      .message-content {\n"
    + "        flex-grow: 1;\n"
    + "      }\n"
    + "      .message-container {\n"
    + "        display: flex;\n"
    + "        flex-direction: row;\n"
    + "        align-items: center;\n"
    + "      }\n"

  const StyleOpen := "\n    <style>\n"
  const StyleClose := "    </style>\n  "

  /** The pieces of the stylesheet, in order. */
  function StylePieces(p: Palette): seq<string> {
    [StyleOpen, BodyRule(p), HeadingRule(p), PreRule(p), FixedRules,
     StrongRule(p), UserRule(p), AiRule(p), LayoutRules, StyleClose]
  }

  /** One `<style>` element holding each colour rule filled from the palette `p`. */
  function SheetFor(p: Palette): (css: string)
    ensures StartsWith(css, StyleOpen) && EndsWith(css, StyleClose)
    ensures Contains(css, BodyRule(p)) && Contains(css, HeadingRule(p))
    ensures Contains(css, PreRule(p)) && Contains(css, StrongRule(p))
    ensures Contains(css, UserRule(p)) && Contains(css, AiRule(p))
  {
    var pieces := StylePieces(p);
    ConcatEnds(pieces);
    PieceContained(pieces, 1);
    PieceContained(pieces, 2);
    PieceContained(pieces, 3);
    PieceContained(pieces, 5);
    PieceContained(pieces, 6);
    PieceContained(pieces, 7);
    Concat(pieces)
  }

  /** `generateStylesheet(darkMode)`: the stylesheet of the chosen mode's palette. */
  function Stylesheet(darkMode: bool): string {
    SheetFor(PaletteFor(darkMode))
  }

  /** A rendered message element: the value of its `data-message-author-role`
      attribute and its inner markup once its buttons are removed. */
  datatype Element = Element(role: string, innerHtml: string)

  /** The two block styles a message can get. */
  datatype Bubble = UserBubble | AiBubble {
    function ClassName(): string {
      match this
      case UserBubble => "user-message"
      case AiBubble => "ai-message"
    }

    function Icon(): string {
      match this
      case UserBubble => "\U{1F64B}"
      case AiBubble => "\U{1F916}"
    }
  }

  /** Only the exact role `user` gets the user style; every other role, not just
      `assistant`, gets the assistant style. */
  function BubbleFor(role: string): (b: Bubble)
    ensures b == UserBubble <==> role == "user"
  {
    if role == "user" then UserBubble else AiBubble
  }

  function OpenTag(b: Bubble): string {
    "<div class=\"" + b.ClassName() + "\">"
  }

  function IconDiv(b: Bubble): string {
    "<div class=\"user-icon\">" + b.Icon() + "</div>"
  }

  function ContentDiv(innerHtml: string): string {
    "<div class=\"message-content\">" + innerHtml + "</div>"
  }

  /** No string starts with both opening tags: they part at the class name. */
  lemma OpenTagsExclusive(s: string)
    ensures !(StartsWith(s, OpenTag(UserBubble)) && StartsWith(s, OpenTag(AiBubble)))
  {
    assert OpenTag(UserBubble)[12] == 'u';
    assert OpenTag(AiBubble)[12] == 'a';
    if StartsWith(s, OpenTag(UserBubble)) && StartsWith(s, OpenTag(AiBubble)) {
      PrefixesAgree(s, OpenTag(UserBubble), OpenTag(AiBubble), 12);
    }
  }

  /** The pieces of the wrapper `div` built for one element: the wrapper's
      opening tag carrying the role's class, the icon and the element's markup. */
  function BlockPieces(b: Bubble, innerHtml: string): seq<string> {
    [OpenTag(b), "\n          <div class=\"message-container\">\n            ",
     IconDiv(b), "\n            ", ContentDiv(innerHtml), "\n          </div>\n        ", "</div>"]
  }

  /** The `outerHTML` of the wrapper `div` built for one element. */
  function Wrap(e: Element): (block: string)
    ensures StartsWith(block, OpenTag(UserBubble)) <==> e.role == "user"
    ensures StartsWith(block, OpenTag(AiBubble)) <==> e.role != "user"
    ensures Contains(block, IconDiv(BubbleFor(e.role)))
    ensures Contains(block, ContentDiv(e.innerHtml))
    ensures EndsWith(block, "</div>")
  {
    var b := BubbleFor(e.role);
    var pieces := BlockPieces(b, e.innerHtml);
    ConcatEnds(pieces);
    PieceOccurs(pieces, 2);
    PieceOccurs(pieces, 4);
    var block := Concat(pieces);
    OpenTagsExclusive(block);
    block
  }

  /** The `content` string: the blocks of all elements concatenated in document order. */
  function WrapAll(es: seq<Element>): (content: string)
    ensures content == [] <==> es == []
  {
    if es == [] then "" else Wrap(es[0]) + WrapAll(es[1..])
  }

  lemma {:induction false} WrapAllAppend(a: seq<Element>, b: seq<Element>)
    ensures WrapAll(a + b) == WrapAll(a) + WrapAll(b)
  {
    if a == [] {
      assert a + b == b;
    } else {
      assert (a + b)[1..] == a[1..] + b;
      WrapAllAppend(a[1..], b);
    }
  }

  /** Where the block of element `k` starts in the content. */
  function BlockOffset(es: seq<Element>, k: nat): nat
    requires k <= |es|
  {
    |WrapAll(es[..k])|
  }

  /** The block of element `k` sits at its offset, and every block ends before the
      next one starts: the content lists the elements in order. */
  lemma BlocksInOrder(es: seq<Element>, k: nat)
    requires k < |es|
    ensures OccursAt(WrapAll(es), Wrap(es[k]), BlockOffset(es, k))
    ensures BlockOffset(es, k) + |Wrap(es[k])| == BlockOffset(es, k + 1)
  {
    assert es == es[..k] + [es[k]] + es[k + 1..];
    WrapAllAppend(es[..k] + [es[k]], es[k + 1..]);
    WrapAllAppend(es[..k], [es[k]]);
    assert WrapAll([es[k]]) == Wrap(es[k]) by { assert [es[k]][1..] == []; }
    assert es[..k + 1] == es[..k] + [es[k]];
    var w := WrapAll(es);
    assert w == WrapAll(es[..k]) + Wrap(es[k]) + WrapAll(es[k + 1..]);
  }

  /** The title read from the page: the text of its `<title>` element, or the
      default when there is no such element or its text is empty. */
  function PageTitle(titleText: Option<string>): (title: string)
    ensures title != []
    ensures titleText.Some? && titleText.value != [] ==> title == titleText.value
    ensures titleText.None? || titleText.value == [] ==> title == DefaultTitle
  {
    match titleText
    case Some(t) => if t != [] then t else DefaultTitle
    case None => DefaultTitle
  }

  function TitleTag(title: string): string {
    "<title>" + title + "</title>"
  }

  function Heading(title: string): string {
    "<h1>" + title + "</h1>"
  }

  /** The document printed to PDF: the title in `<title>`, the stylesheet in the
      head, and in the body an `<h1>` with the title followed by the content. */
  function HtmlDocument(title: string, stylesheet: string, content: string): (html: string)
    ensures exists i, j :: OccursAt(html, TitleTag(title), i) && OccursAt(html, stylesheet, j)
                           && i + |TitleTag(title)| <= j
    ensures exists i, j :: OccursAt(html, Heading(title), i) && OccursAt(html, content, j)
                           && i + |Heading(title)| <= j
  {
    var pieces := [
      "\n      <!DOCTYPE html>\n      <html>\n        <head>\n          <meta charset=\"UTF-8\">\n          ",
      TitleTag(title), "\n          ", stylesheet, "\n        </head>\n        <body>\n          ",
      Heading(title), "\n          ", content, "\n        </body>\n      </html>\n    "];
    PieceOccurs(pieces, 1);
    PieceOccurs(pieces, 2);
    PieceOccurs(pieces, 3);
    PieceOccurs(pieces, 5);
    PieceOccurs(pieces, 6);
    PieceOccurs(pieces, 7);
    Concat(pieces)
  }
}

=== FILE: fetch_route.dfy ===
/** The conversation endpoint (`POST` in the fetchData route): it requires a url,
    fetches the shared page, selects the last inline script holding the Remix
    hydration marker, captures the `linear_conversation` array in it, parses it
    and answers with the normalised turns. The HTTP fetch with the HTML parse,
    and `JSON.parse`, are foreign; they enter as parameters. */
module FetchRoute {
  import opened Results
  import opened Strings
  import opened RemixExtract
  import opened Normalize

  const UrlRequired := "URL is required"
  const FetchFailed := "Failed to fetch content"
  const ContextMissing := "Remix context not found"
  const ConversationMissing := "Linear conversation not found"

  /** A JSON array of message strings with status 200, or an error object. */
  datatype Response = Conversation(messages: seq<string>) | JsonError(status: nat, error: string)

  /** What the route answers once a context script is selected: 404 when the
      capture fails, 500 when parsing or normalising throws, else the turns. */
  function Answer(context: string, parseItems: string -> Option<seq<Item>>): (r: Response)
    ensures Capture(context).None? ==> r == JsonError(404, ConversationMissing)
    ensures r.Conversation? <==>
              && Capture(context).Some? && parseItems(Capture(context).value).Some?
              && forall k :: 0 <= k < |parseItems(Capture(context).value).value| ==>
                               !Throws(parseItems(Capture(context).value).value[k])
    ensures r.Conversation? ==> r.messages == Turns(parseItems(Capture(context).value).value)
    ensures Capture(context).Some? && !r.Conversation? ==> r == JsonError(500, FetchFailed)
    ensures r.JsonError? && r.status == 500 ==> r.error == FetchFailed
    ensures r.JsonError? ==> r.status == 404 || r.status == 500
  {
    match Capture(context)
    case None => JsonError(404, ConversationMissing)
    case Some(captured) =>
      match parseItems(captured)
      case None => JsonError(500, FetchFailed)
      case Some(items) =>
        MessagesAreTurns(items);
        match Messages(items)
        case None => JsonError(500, FetchFailed)
        case Some(messages) => Conversation(messages)
  }

  /** `POST`. `fetchScripts` stands for the fetch of the page and the listing of its
      script bodies in document order (`None` when either throws); `parseItems`
      for `JSON.parse` of the captured text (`None` when it throws or yields no
      array). Every thrown failure inside the handler answers 500. */
  method Post(url: Option<string>, fetchScripts: string -> Option<seq<string>>,
              parseItems: string -> Option<seq<Item>>) returns (r: Response)
    ensures !Supplied(url) ==> r == JsonError(400, UrlRequired)
    ensures Supplied(url) && fetchScripts(url.value).None? ==> r == JsonError(500, FetchFailed)
    ensures Supplied(url) && fetchScripts(url.value).Some? &&
            (forall k :: 0 <= k < |fetchScripts(url.value).value| ==> !Contains(fetchScripts(url.value).value[k], Marker))
            ==> r == JsonError(404, ContextMissing)
    ensures forall k :: Supplied(url) && fetchScripts(url.value).Some? && IsLastMarked(fetchScripts(url.value).value, k)
              ==> r == Answer(fetchScripts(url.value).value[k], parseItems)
    ensures r.JsonError? && r.status == 400 <==> !Supplied(url)
    ensures r.JsonError? ==> r.status in {400, 404, 500}
  {
    if !Supplied(url) {
      return JsonError(400, UrlRequired);
    }
    var fetched := fetchScripts(url.value);
    if fetched.None? {
      return JsonError(500, FetchFailed);
    }
    var context := SelectContext(fetched.value);
    if context == [] {
      return JsonError(404, ContextMissing);
    }
    r := Answer(context, parseItems);
    LastMarkedUnique(fetched.value);
  }

  /** At most one script is the last one holding the marker. */
  lemma LastMarkedUnique(scripts: seq<string>)
    ensures forall k, l :: IsLastMarked(scripts, k) && IsLastMarked(scripts, l) ==> k == l
  {
  }
}

=== FILE: file_name.dfy ===
/** The download name of a generated PDF (`sanitizeFileName` in the scrape route):
    every character outside `[A-Za-z0-9-_.]` becomes `_`, the result is cut to 255
    characters, and `.pdf` is appended unless the cut name already ends with it. */
module FileName {
  import opened Strings

  const MaxFileNameLength: nat := 255
  const DefaultFileName := "downloaded-content.pdf"
  const PdfSuffix := ".pdf"

  /** The characters the name may keep: `a-z`, `A-Z`, `0-9`, `-`, `_` and `.`. */
  predicate IsAllowed(c: char) {
    ('a' <= c <= 'z') || ('A' <= c <= 'Z') || ('0' <= c <= '9') || c == '-' || c == '_' || c == '.'
  }

  function SanitizeChar(c: char): char {
    if IsAllowed(c) then c else '_'
  }

  /** The global replacement of the disallowed-character class by `_`. */
  function ReplaceDisallowed(s: string): (r: string)
    ensures |r| == |s|
    ensures forall i :: 0 <= i < |s| && IsAllowed(s[i]) ==> r[i] == s[i]
    ensures forall i :: 0 <= i < |s| && !IsAllowed(s[i]) ==> r[i] == '_'
    ensures forall i :: 0 <= i < |r| ==> IsAllowed(r[i])
  {
    if s == [] then [] else [SanitizeChar(s[0])] + ReplaceDisallowed(s[1..])
  }

  function Min(a: nat, b: nat): nat {
    if a <= b then a else b
  }

  /** The sanitised name before the suffix is forced: `slice(0, 255)` of the replacement. */
  function Stem(name: string): string {
    ReplaceDisallowed(name)[..Min(|name|, MaxFileNameLength)]
  }

  function SanitizeFileName(name: string): (r: string)
    ensures name == [] ==> r == DefaultFileName
    ensures EndsWith(r, PdfSuffix)
    ensures 4 <= |r| <= MaxFileNameLength + |PdfSuffix|
    ensures forall i :: 0 <= i < |r| ==> IsAllowed(r[i])
    ensures name != [] ==>
      (|r| == Min(|name|, MaxFileNameLength) <==> EndsWith(name[..Min(|name|, MaxFileNameLength)], PdfSuffix))
    ensures name != [] ==>
      (|r| == Min(|name|, MaxFileNameLength) + |PdfSuffix| <==> !EndsWith(name[..Min(|name|, MaxFileNameLength)], PdfSuffix))
    ensures name != [] ==>
      (forall i :: 0 <= i < Min(|name|, MaxFileNameLength) ==> r[i] == SanitizeChar(name[i]))
  {
    if name == [] then
      DefaultNameAllowed();
      DefaultFileName
    else
      var stem := Stem(name);
      StemEndsWithPdf(name);
      if EndsWith(stem, PdfSuffix) then stem else stem + PdfSuffix
  }

  /** The default name is made of allowed characters only. */
  lemma DefaultNameAllowed()
    ensures EndsWith(DefaultFileName, PdfSuffix)
    ensures forall i :: 0 <= i < |DefaultFileName| ==> IsAllowed(DefaultFileName[i])
  {
    assert DefaultFileName == "downloaded-content" + PdfSuffix;
    forall i | 0 <= i < |DefaultFileName| ensures IsAllowed(DefaultFileName[i]) {
      assert DefaultFileName[i] in DefaultFileName;
    }
  }

  /** The cut replacement ends with `.pdf` exactly when the cut input does: `.`,
      `p`, `d` and `f` are kept and `_` is none of them. */
  lemma StemEndsWithPdf(name: string)
    ensures EndsWith(Stem(name), PdfSuffix) <==> EndsWith(name[..Min(|name|, MaxFileNameLength)], PdfSuffix)
  {
    var m := Min(|name|, MaxFileNameLength);
    var stem := Stem(name);
    if m >= 4 {
      var cut := name[..m];
      forall k | m - 4 <= k < m
        ensures stem[k] == PdfSuffix[k - (m - 4)] <==> cut[k] == PdfSuffix[k - (m - 4)]
      {
        assert stem[k] == SanitizeChar(name[k]);
      }
      assert stem[m - 4..] == PdfSuffix <==> cut[m - 4..] == PdfSuffix by {
        if stem[m - 4..] == PdfSuffix {
          forall k | 0 <= k < 4 ensures cut[m - 4..][k] == PdfSuffix[k] {
            assert stem[m - 4 + k] == PdfSuffix[k];
          }
        }
        if cut[m - 4..] == PdfSuffix {
          forall k | 0 <= k < 4 ensures stem[m - 4..][k] == PdfSuffix[k] {
            assert cut[m - 4 + k] == PdfSuffix[k];
          }
        }
      }
    }
  }

  /** A string made only of allowed characters is left alone by the replacement. */
  lemma ReplaceAllowedIsIdentity(s: string)
    requires forall i :: 0 <= i < |s| ==> IsAllowed(s[i])
    ensures ReplaceDisallowed(s) == s
  {
  }

  /** On a name of allowed characters only, sanitising is the cut and the suffix. */
  lemma SanitizeAllowedName(name: string)
    requires name != []
    requires forall i :: 0 <= i < |name| ==> IsAllowed(name[i])
    ensures var cut := name[..Min(|name|, MaxFileNameLength)];
            SanitizeFileName(name) == if EndsWith(cut, PdfSuffix) then cut else cut + PdfSuffix
  {
    ReplaceAllowedIsIdentity(name);
    assert Stem(name) == name[..Min(|name|, MaxFileNameLength)];
  }

  /** Sanitising a name of at most 255 characters that sanitising produced gives it back. */
  lemma SanitizeIdempotentUpTo255(name: string)
    requires |SanitizeFileName(name)| <= MaxFileNameLength
    ensures SanitizeFileName(SanitizeFileName(name)) == SanitizeFileName(name)
  {
    var r := SanitizeFileName(name);
    assert Min(|r|, MaxFileNameLength) == |r|;
    assert r[..|r|] == r;
    SanitizeAllowedName(r);
  }

  /** `n` copies of `c`. */
  function Run(c: char, n: nat): (r: string)
    ensures |r| == n && forall i :: 0 <= i < n ==> r[i] == c
  {
    seq(n, _ => c)
  }

  /** On a name of allowed characters whose cut does not end in `.pdf`,
      sanitising appends the suffix to the cut. */
  lemma SanitizeAllowedAppends(name: string, cut: string)
    requires name != []
    requires forall i :: 0 <= i < |name| ==> IsAllowed(name[i])
    requires cut == name[..Min(|name|, MaxFileNameLength)] && !EndsWith(cut, PdfSuffix)
    ensures SanitizeFileName(name) == cut + PdfSuffix
  {
    SanitizeAllowedName(name);
  }

  /** Sanitising is not idempotent beyond 255 characters: 254 `a`s become
      `aaa…a.pdf` (258 characters), and sanitising that cuts it to `aaa…a.`
      and forces a second suffix, giving `aaa…a..pdf`. */
  lemma SanitizeNotIdempotentBeyond255()
    ensures SanitizeFileName(Run('a', 254)) == Run('a', 254) + PdfSuffix
    ensures SanitizeFileName(SanitizeFileName(Run('a', 254))) == Run('a', 254) + "." + PdfSuffix
    ensures SanitizeFileName(SanitizeFileName(Run('a', 254))) != SanitizeFileName(Run('a', 254))
  {
    var a := Run('a', 254);
    FirstSanitizing(a);
    SecondSanitizing(a);
    assert |a + PdfSuffix| == 258;
    assert |a + "." + PdfSuffix| == 259;
  }

  lemma FirstSanitizing(a: string)
    requires a == Run('a', 254)
    ensures SanitizeFileName(a) == a + PdfSuffix
  {
    assert a[..254] == a;
    assert !EndsWith(a, PdfSuffix) by { assert a[253] == 'a'; }
    SanitizeAllowedAppends(a, a);
  }

  lemma SecondSanitizing(a: string)
    requires a == Run('a', 254)
    ensures SanitizeFileName(a + PdfSuffix) == a + "." + PdfSuffix
  {
    var r := a + PdfSuffix;
    var cut := a + ".";
    assert forall i :: 0 <= i < |r| ==> IsAllowed(r[i]) by {
      forall i | 0 <= i < |r| ensures IsAllowed(r[i]) {
        if i >= 254 { assert r[i] == PdfSuffix[i - 254]; }
      }
    }
    assert r[..255] == cut;
    assert !EndsWith(cut, PdfSuffix) by { assert cut[254] == '.'; assert cut[253] == 'a'; }
    SanitizeAllowedAppends(r, cut);
  }

  /** The bound 259 is reached: 255 or more allowed characters not ending in `.pdf`. */
  lemma SanitizeReaches259()
    ensures |SanitizeFileName(Run('a', 300))| == MaxFileNameLength + |PdfSuffix|
  {
    var a := Run('a', 300);
    SanitizeAllowedName(a);
    assert a[..255][254] == 'a';
  }

  /** The worked example `My Report!!.txt` ↦ `My_Report__.txt.pdf`: the space and
      the two `!` become `_`, and `.txt` is not `.pdf`, so the suffix is added. */
  lemma SanitizeExample(name: string)
    requires name == "My Report!!.txt"
    ensures SanitizeFileName(name) == "My_Report__.txt.pdf"
  {
    var stem := "My_Report__.txt";
    ExampleStem(name, stem);
    ExampleStemNotPdf(stem);
    SanitizeByStem(name, stem);
  }

  lemma ExampleStem(name: string, stem: string)
    requires name == "My Report!!.txt" && stem == "My_Report__.txt"
    ensures Stem(name) == stem
  {
    var r := ReplaceDisallowed(name);
    forall i | 0 <= i < |name| ensures r[i] == stem[i] {
      if i == 2 || i == 9 || i == 10 {
        assert !IsAllowed(name[i]);
      } else {
        assert IsAllowed(name[i]) && name[i] == stem[i];
      }
    }
    assert r[..15] == r;
  }

  lemma ExampleStemNotPdf(stem: string)
    requires stem == "My_Report__.txt"
    ensures !EndsWith(stem, PdfSuffix)
  {
    assert stem[14] == 't';
  }

  /** A name whose stem does not end in `.pdf` gets the suffix appended. */
  lemma SanitizeByStem(name: string, stem: string)
    requires name != [] && Stem(name) == stem && !EndsWith(stem, PdfSuffix)
    ensures SanitizeFileName(name) == stem + PdfSuffix
  {
  }
}

=== FILE: format_message.dfy ===
/** The conversation view's text formatting (`formatMessage` and the `isUser`
    test of the generate page): a message is split into lines and each line is
    shown as a header, a bold paragraph, a bullet or a plain paragraph, decided
    in that order. */
module MessageFormat {
  import opened Results
  import opened Strings

  const Stars := "**"
  const HeaderMark := "###"
  const BulletMark := "- "

  /** One rendered line: the kind of element and the text it shows. */
  datatype Block = Header(text: string) | Bold(text: string) | Bullet(text: string) | Plain(text: string)

  /** `\*\*(.*?)\*\*` can match with its opening `**` at `a` and its closing `**` at
      `b`: `.` crosses no line terminator. */
  predicate PairAt(s: string, a: int, b: int) {
    && OccursAt(s, Stars, a)
    && a + 2 <= b
    && OccursAt(s, Stars, b)
    && forall k :: a + 2 <= k < b ==> !IsLineTerminator(s[k])
  }

  /** The match the expression takes: the leftmost opening, and the lazy group
      stops at the first closing `**` after it. */
  ghost predicate FirstPair(s: string, a: int, b: int) {
    && PairAt(s, a, b)
    && (forall b' :: a + 2 <= b' < b ==> !OccursAt(s, Stars, b'))
    && (forall a', b' :: 0 <= a' < a ==> !PairAt(s, a', b'))
  }

  /** The expression matches somewhere in `s` (its `.test`). */
  ghost predicate HasPair(s: string) {
    exists a, b :: PairAt(s, a, b)
  }

  /** The first closing `**` at or after `from` reached without crossing a line terminator. */
  function CloseFrom(s: string, from: nat): (b: Option<nat>)
    requires from <= |s|
    ensures b.Some? ==> from <= b.value && OccursAt(s, Stars, b.value)
    ensures b.Some? ==> forall k :: from <= k < b.value ==> !IsLineTerminator(s[k]) && !OccursAt(s, Stars, k)
    ensures b.None? ==> forall q :: from <= q && OccursAt(s, Stars, q) ==>
                          exists k :: from <= k < q && IsLineTerminator(s[k])
    decreases |s| - from
  {
    if from + 2 > |s| then None
    else if OccursAt(s, Stars, from) then Some(from)
    else if IsLineTerminator(s[from]) then None
    else CloseFrom(s, from + 1)
  }

  /** The search for the first match from start position `p` on. */
  function PairFrom(s: string, p: nat): (r: Option<(nat, nat)>)
    requires p <= |s|
    ensures r.Some? ==> p <= r.value.0 && PairAt(s, r.value.0, r.value.1)
    ensures r.Some? ==> forall b' :: r.value.0 + 2 <= b' < r.value.1 ==> !OccursAt(s, Stars, b')
    ensures r.Some? ==> forall a', b' :: p <= a' < r.value.0 ==> !PairAt(s, a', b')
    ensures r.None? ==> forall a, b :: p <= a ==> !PairAt(s, a, b)
    decreases |s| - p
  {
    if p + 2 > |s| then
      assert forall a, b :: p <= a ==> !PairAt(s, a, b) by {
        forall a, b | p <= a && PairAt(s, a, b) ensures false {
        }
      }
      None
    else if OccursAt(s, Stars, p) && CloseFrom(s, p + 2).Some? then
      Some((p, CloseFrom(s, p + 2).value))
    else
      assert forall b :: !PairAt(s, p, b) by {
        if OccursAt(s, Stars, p) {
          forall b | PairAt(s, p, b) ensures false {
          }
        }
      }
      PairFrom(s, p + 1)
  }

  /** The search finds a pair exactly when there is one. */
  lemma PairFromFindsAny(s: string)
    ensures PairFrom(s, 0).Some? <==> HasPair(s)
  {
    var r := PairFrom(s, 0);
    if r.Some? {
      assert PairAt(s, r.value.0, r.value.1);
    }
  }

  /** The bold test of a line: the bold expression matches somewhere in it. */
  predicate HasBold(line: string)
    ensures HasBold(line) <==> HasPair(line)
  {
    PairFromFindsAny(line);
    PairFrom(line, 0).Some?
  }

  /** The line with the markers at `a` and at `b` cut out. */
  function Unwrapped(s: string, a: nat, b: nat): string
    requires a + 2 <= b && b + 2 <= |s|
  {
    s[..a] + s[a + 2..b] + s[b + 2..]
  }

  /** Replacing the first match of the bold expression by its group. */
  function UnwrapFirstBold(s: string): string {
    match PairFrom(s, 0)
    case None => s
    case Some((a, b)) => Unwrapped(s, a, b)
  }

  /** The first bold pair loses its markers; the rest of the line is unchanged,
      later pairs included, and a line without a pair is left alone. */
  lemma UnwrapFirstBoldSpec(s: string)
    ensures !HasPair(s) ==> UnwrapFirstBold(s) == s
    ensures HasPair(s) ==> exists a, b :: FirstPair(s, a, b) && UnwrapFirstBold(s) == s[..a] + s[a + 2..b] + s[b + 2..]
  {
    PairFromFindsAny(s);
    var m := PairFrom(s, 0);
    if m.Some? {
      var a, b := m.value.0, m.value.1;
      assert FirstPair(s, a, b);
      UnwrapAtFirst(s, a, b);
    }
  }

  /** Putting the two markers back where the first pair stood restores the line. */
  lemma UnwrapRestores(s: string, a: int, b: int)
    requires FirstPair(s, a, b)
    ensures var r := UnwrapFirstBold(s);
            |r| == |s| - 4 && s == r[..a] + Stars + r[a..b - 2] + Stars + r[b - 2..]
  {
    FirstPairFound(s, a, b);
    UnwrapAtFirst(s, a, b);
    Reinsert(s, Stars, a, b);
  }

  /** The search finds the first pair. */
  lemma FirstPairFound(s: string, a: int, b: int)
    requires FirstPair(s, a, b)
    ensures PairFrom(s, 0) == Some((a, b))
  {
    var m := PairFrom(s, 0);
    PairFromFindsAny(s);
    assert m.Some?;
    FirstPairUnique(s, a, b);
    assert FirstPair(s, m.value.0, m.value.1);
  }

  /** Unwrapping removes the markers of the pair the search finds. */
  lemma UnwrapAtFirst(s: string, a: nat, b: nat)
    requires PairFrom(s, 0) == Some((a, b))
    ensures a + 2 <= b && b + 2 <= |s|
    ensures UnwrapFirstBold(s) == Unwrapped(s, a, b)
  {
  }

  /** Cutting two occurrences of a marker out of a line and putting them back
      gives the line. */
  lemma Reinsert(s: string, m: string, a: int, b: int)
    requires 0 <= a && a + |m| <= b && OccursAt(s, m, a) && OccursAt(s, m, b)
    ensures var r := s[..a] + s[a + |m|..b] + s[b + |m|..];
            |r| == |s| - 2 * |m| && s == r[..a] + m + r[a..b - |m|] + m + r[b - |m|..]
  {
    var x, y, z := s[..a], s[a + |m|..b], s[b + |m|..];
    ThreeSlices(x, y, z);
    Rejoin(s, m, a, b);
  }

  lemma ThreeSlices(x: string, y: string, z: string)
    ensures var r := x + y + z;
            r[..|x|] == x && r[|x|..|x| + |y|] == y && r[|x| + |y|..] == z
  {
  }

  lemma Rejoin(s: string, m: string, a: int, b: int)
    requires 0 <= a && a + |m| <= b && OccursAt(s, m, a) && OccursAt(s, m, b)
    ensures s == s[..a] + m + s[a + |m|..b] + m + s[b + |m|..]
  {
    var x, y, z := s[..a], s[a + |m|..b], s[b + |m|..];
    assert s[b..] == m + z;
    assert s[a + |m|..] == y + m + z;
    assert s[a..] == m + y + m + z;
    assert s == x + s[a..];
  }

  /** There is only one first pair. */
  lemma FirstPairUnique(s: string, a: int, b: int)
    requires FirstPair(s, a, b)
    ensures forall a', b' :: FirstPair(s, a', b') ==> a' == a && b' == b
  {
  }

  /** Removing a match of the anchored prefix expression (white space, `-`, white
      space): a leading hyphen with white space around it is removed; a line that
      does not begin so is left alone. */
  function StripBulletPrefix(s: string): (r: string)
    ensures exists n :: 0 <= n <= |s| && r == s[n..]
    ensures var a := SpaceRun(s, 0);
            a < |s| && s[a] == '-' ==> r == s[a + 1 + SpaceRun(s, a + 1)..]
    ensures var a := SpaceRun(s, 0);
            !(a < |s| && s[a] == '-') ==> r == s
  {
    var a := SpaceRun(s, 0);
    if a < |s| && s[a] == '-' then s[a + 1 + SpaceRun(s, a + 1)..]
    else assert s[0..] == s; s
  }

  /** What a header shows before its bold pair is unwrapped: the line without
      its `###` and the white space after it. */
  function HeaderText(line: string): (text: string)
    requires StartsWith(line, HeaderMark)
    ensures exists n :: 3 <= n <= |line| && text == line[n..]
                        && forall k :: 3 <= k < n ==> IsSpace(line[k])
    ensures text != [] ==> !IsSpace(text[0])
  {
    line[3 + SpaceRun(line, 3)..]
  }

  /** The kind and text of one line, tried in the order header, bold, bullet. */
  function Classify(line: string): (b: Block)
    ensures b.Header? <==> StartsWith(line, HeaderMark)
    ensures b.Bold? <==> !StartsWith(line, HeaderMark) && HasPair(line)
    ensures b.Bullet? <==> !StartsWith(line, HeaderMark) && !HasPair(line) && Contains(line, BulletMark)
    ensures b.Plain? ==> b.text == line
    ensures b.Header? ==> b.text == UnwrapFirstBold(HeaderText(line))
    ensures b.Bold? ==> b.text == UnwrapFirstBold(line)
    ensures b.Bullet? ==> b.text == Trim(StripBulletPrefix(line))
  {
    if StartsWith(line, HeaderMark) then Header(UnwrapFirstBold(HeaderText(line)))
    else if HasBold(line) then Bold(UnwrapFirstBold(line))
    else if Contains(line, BulletMark) then Bullet(Trim(StripBulletPrefix(line)))
    else Plain(line)
  }

  /** `formatMessage`: one block per piece of `content.split("\n")`, in order. */
  function FormatMessage(content: string): (blocks: seq<Block>)
    ensures |blocks| == multiset(content)['\n'] + 1
    ensures forall k :: 0 <= k < |blocks| ==> blocks[k] == Classify(Split(content, '\n')[k])
  {
    var lines := Split(content, '\n');
    seq(|lines|, k requires 0 <= k < |lines| => Classify(lines[k]))
  }

  /** The plain lines of a message, joined back with newlines, give the message:
      a message without markup is shown line for line as written. */
  lemma PlainMessageShownAsWritten(content: string)
    requires forall k :: 0 <= k < |FormatMessage(content)| ==> FormatMessage(content)[k].Plain?
    ensures var blocks := FormatMessage(content);
            Join(seq(|blocks|, k requires 0 <= k < |blocks| => blocks[k].text), '\n') == content
  {
    var blocks := FormatMessage(content);
    var lines := Split(content, '\n');
    assert seq(|blocks|, k requires 0 <= k < |blocks| => blocks[k].text) == lines;
    JoinSplit(content, '\n');
  }

  /** A line whose first character is not `#` is no header. */
  lemma NotHeader(line: string)
    requires line != [] && line[0] != '#'
    ensures !StartsWith(line, HeaderMark)
  {
    if |line| >= 3 {
      assert line[..3][0] == line[0];
    }
  }

  /** A line without `-` holds no `- `. */
  lemma NoHyphenNoBullet(line: string)
    requires '-' !in line
    ensures !Contains(line, BulletMark)
  {
    forall i | 0 <= i && i + 2 <= |line| ensures !OccursAt(line, BulletMark, i) {
      assert line[i..i + 2][0] == line[i];
    }
  }

  /** A line shorter than four characters holds no bold pair. */
  lemma ShortLineNoPair(line: string)
    requires |line| < 4
    ensures !HasPair(line)
  {
    forall a, b ensures !PairAt(line, a, b) {
    }
  }

  /** `***` holds two overlapping markers but no pair, so it is not bold. */
  lemma TripleStarNotBold(line: string)
    requires line == "***"
    ensures !HasPair(line)
    ensures Classify(line) == Plain("***")
  {
    NotHeader(line);
    NoHyphenNoBullet(line);
    ShortLineNoPair(line);
  }

  /** A line that does not open with `#`, holds no `*` and contains `- ` is a bullet. */
  lemma BulletLine(line: string)
    requires line != [] && line[0] != '#'
    requires '*' !in line
    requires Contains(line, BulletMark)
    ensures Classify(line) == Bullet(Trim(StripBulletPrefix(line)))
  {
    NotHeader(line);
    NoStarNoPair(line);
  }

  /** A hyphen inside the line makes a bullet but is not stripped: `a - b` stays `a - b`. */
  lemma InnerHyphenExample(line: string)
    requires line == "a - b"
    ensures Classify(line) == Bullet("a - b")
  {
    InnerHyphenIsBullet(line);
    InnerHyphenKept(line);
    TrimUnpadded(line);
  }

  lemma InnerHyphenIsBullet(line: string)
    requires line == "a - b"
    ensures Classify(line) == Bullet(Trim(StripBulletPrefix(line)))
  {
    assert OccursAt(line, BulletMark, 2);
    BulletLine(line);
  }

  lemma InnerHyphenKept(line: string)
    requires line == "a - b"
    ensures StripBulletPrefix(line) == line
    ensures !IsSpace(line[0]) && !IsSpace(line[|line| - 1])
  {
    assert SpaceRun(line, 0) == 0;
  }

  /** A leading hyphen and the white space around it go: ` - item` shows `item`. */
  lemma LeadingHyphenExample(line: string)
    requires line == " - item"
    ensures Classify(line) == Bullet("item")
  {
    LeadingHyphenIsBullet(line);
    LeadingHyphenStripped(line);
    ItemUnpadded(StripBulletPrefix(line));
  }

  lemma LeadingHyphenIsBullet(line: string)
    requires line == " - item"
    ensures Classify(line) == Bullet(Trim(StripBulletPrefix(line)))
  {
    assert OccursAt(line, BulletMark, 1);
    BulletLine(line);
  }

  lemma LeadingHyphenStripped(line: string)
    requires line == " - item"
    ensures StripBulletPrefix(line) == "item"
  {
    assert SpaceRun(line, 0) == 1 by { assert SpaceRun(line, 1) == 0; }
    assert SpaceRun(line, 2) == 1 by { assert SpaceRun(line, 3) == 0; }
    assert line[3..] == "item";
  }

  lemma ItemUnpadded(text: string)
    requires text == "item"
    ensures Trim(text) == "item"
  {
    TrimUnpadded(text);
  }

  /** A line without `*` holds no bold pair. */
  lemma NoStarNoPair(s: string)
    requires '*' !in s
    ensures !HasPair(s)
  {
    forall a, b ensures !PairAt(s, a, b) {
      if 0 <= a < |s| {
        NoStarsAt(s, a);
      }
    }
  }

  lemma NoStarsAt(s: string, i: int)
    requires 0 <= i < |s| && s[i] != '*'
    ensures !OccursAt(s, Stars, i)
  {
  }

  lemma StarsAt(s: string, i: int)
    requires 0 <= i && i + 1 < |s| && s[i] == '*' && s[i + 1] == '*'
    ensures OccursAt(s, Stars, i)
  {
    assert s[i..i + 2] == [s[i], s[i + 1]];
  }

  /** The closing search runs over a stretch holding neither `*` nor a line
      terminator to the `**` right after it. */
  lemma {:induction false} CloseAfterRun(s: string, from: nat, b: nat)
    requires from <= b && OccursAt(s, Stars, b)
    requires forall k :: from <= k < b ==> s[k] != '*' && !IsLineTerminator(s[k])
    ensures CloseFrom(s, from) == Some(b)
    decreases b - from
  {
    if from < b {
      NoStarsAt(s, from);
      CloseAfterRun(s, from + 1, b);
    }
  }

  /** A line opening with a pair loses the pair's markers. */
  lemma UnwrapLeadingPair(s: string, b: nat)
    requires OccursAt(s, Stars, 0) && 2 <= b && CloseFrom(s, 2) == Some(b)
    ensures UnwrapFirstBold(s) == s[2..b] + s[b + 2..]
  {
    assert |s| >= 2;
    assert PairFrom(s, 0) == Some((0, b));
    UnwrapAtFirst(s, 0, b);
    assert s[..0] + s[2..b] + s[b + 2..] == s[2..b] + s[b + 2..];
  }

  /** Only the first pair is unwrapped: `**a** b **c**` shows `a b **c**` in bold. */
  lemma FirstPairOnlyExample(line: string)
    requires line == "**a** b **c**"
    ensures Classify(line) == Bold("a b **c**")
  {
    assert OccursAt(line, Stars, 0) && CloseFrom(line, 2) == Some(3) by {
      StarsAt(line, 0);
      StarsAt(line, 3);
      CloseAfterRun(line, 2, 3);
    }
    UnwrapLeadingPair(line, 3);
    assert line[2..3] + line[5..] == "a b **c**" by {
      assert line[..3][2] == line[2] == 'a';
    }
    assert !StartsWith(line, HeaderMark);
    assert PairFrom(line, 0).Some?;
  }

  lemma UnwrapPlanExample(rest: string)
    requires rest == "**Plan** now"
    ensures UnwrapFirstBold(rest) == "Plan now"
  {
    assert OccursAt(rest, Stars, 0) && CloseFrom(rest, 2) == Some(6) by {
      StarsAt(rest, 0);
      StarsAt(rest, 6);
      CloseAfterRun(rest, 2, 6);
    }
    UnwrapLeadingPair(rest, 6);
    assert rest[2..6] + rest[8..] == "Plan now";
  }

  /** A header drops `###` and the white space after it, then unwraps its first
      pair: `### **Plan** now` shows `Plan now`. */
  lemma HeaderExample(line: string)
    requires line == "### **Plan** now"
    ensures Classify(line) == Header("Plan now")
  {
    assert StartsWith(line, HeaderMark) by { assert line[..3] == "###"; }
    assert SpaceRun(line, 3) == 1 by { assert SpaceRun(line, 4) == 0; }
    assert HeaderText(line) == line[4..];
    UnwrapPlanExample(line[4..]);
  }

  /** ASCII lower-casing of one character. */
  function LowerAscii(c: char): char {
    if 'A' <= c <= 'Z' then (c as int + 32) as char else c
  }

  /** `role.toLowerCase() === "user"`. */
  predicate IsUser(role: string) {
    |role| == 4 && forall k :: 0 <= k < 4 ==> LowerAscii(role[k]) == "user"[k]
  }

  /** The roles counted as the user's are exactly the sixteen case variants of `user`. */
  lemma IsUserCaseVariants(role: string)
    ensures IsUser(role) <==>
              && |role| == 4
              && (role[0] == 'u' || role[0] == 'U') && (role[1] == 's' || role[1] == 'S')
              && (role[2] == 'e' || role[2] == 'E') && (role[3] == 'r' || role[3] == 'R')
  {
    if |role| == 4 {
      assert "user"[0] == 'u' && "user"[1] == 's' && "user"[2] == 'e' && "user"[3] == 'r';
    }
  }
}

=== FILE: normalize.dfy ===
/** The normalisation of the parsed `linear_conversation` items in the fetchData
    route: a filter keeps the items that carry message text and are not system
    turns, a map renders each as `User: …` or `Assistant: …` (or null for any
    other role), and a second filter drops the nulls. A missing `author` on an
    item that passes the first three tests makes the filter throw. */
module Normalize {
  import opened Results
  import opened Strings

  /** `None` stands for an absent field, a `null`, or (for `role`) any non-string value. */
  datatype Author = Author(role: Option<string>)
  datatype Content = Content(parts: Option<seq<string>>)
  datatype Message = Message(author: Option<Author>, content: Option<Content>)

  /** An element of the parsed array: `null`, or any other value, seen through its
      `message` field (absent on numbers, strings and objects without it). */
  datatype Item = NullItem | Record(message: Option<Message>)

  const UserPrefix := "User: "
  const AssistantPrefix := "Assistant: "

  /** The item has message text: `message`, `content` and `parts` are all present. */
  predicate HasParts(item: Item) {
    item.Record? && item.message.Some? && item.message.value.content.Some?
    && item.message.value.content.value.parts.Some?
  }

  function PartsOf(item: Item): seq<string>
    requires HasParts(item)
  {
    item.message.value.content.value.parts.value
  }

  /** Reading `item.message.author.role` throws: on a `null` item at the first
      test, and on an item with message text but no author at the last. */
  predicate Throws(item: Item) {
    item.NullItem? || (HasParts(item) && item.message.value.author.None?)
  }

  function RoleOf(item: Item): Option<string>
    requires HasParts(item) && !Throws(item)
  {
    item.message.value.author.value.role
  }

  /** The first filter's verdict on an item that does not throw. */
  predicate Kept(item: Item)
    requires !Throws(item)
  {
    HasParts(item) && RoleOf(item) != Some("system")
  }

  /** `.filter(...)`: the kept items in order, or `None` when the callback throws. */
  function KeepItems(items: seq<Item>): (r: Option<seq<Item>>)
    ensures r.None? <==> exists k :: 0 <= k < |items| && Throws(items[k])
    ensures r.Some? ==> forall k :: 0 <= k < |r.value| ==> !Throws(r.value[k]) && Kept(r.value[k])
    ensures r.Some? ==> forall k :: 0 <= k < |r.value| ==> r.value[k] in items
    ensures r.Some? ==> forall k :: 0 <= k < |items| && Kept(items[k]) ==> items[k] in r.value
    ensures r.Some? ==> |r.value| <= |items|
  {
    if items == [] then Some([])
    else if Throws(items[0]) then None
    else
      assert forall k :: 1 <= k < |items| ==> items[k] == items[1..][k - 1];
      match KeepItems(items[1..])
      case None => None
      case Some(rest) => Some(if Kept(items[0]) then [items[0]] + rest else rest)
  }

  /** The filter of one item: it throws, or keeps the item exactly when it passes. */
  lemma KeepOne(item: Item)
    ensures KeepItems([item]) == if Throws(item) then None else Some(if Kept(item) then [item] else [])
  {
    var items := [item];
    assert items[1..] == [];
    assert KeepItems(items[1..]) == Some([]);
    if !Throws(item) && Kept(item) {
      assert [item] + [] == [item];
    }
  }

  /** Filtering two runs of items is filtering each and joining the results:
      with `KeepOne`, the filter keeps the passing items in their order. */
  lemma {:induction false} KeepItemsAppend(a: seq<Item>, b: seq<Item>)
    ensures KeepItems(a + b).Some? <==> KeepItems(a).Some? && KeepItems(b).Some?
    ensures KeepItems(a + b).Some? ==> KeepItems(a + b).value == KeepItems(a).value + KeepItems(b).value
  {
    if a == [] {
      assert a + b == b;
    } else {
      assert (a + b)[0] == a[0];
      assert (a + b)[1..] == a[1..] + b;
      KeepItemsAppend(a[1..], b);
    }
  }

  /** The map callback: the rendered turn, or `None` for the callback's `null`. */
  function Render(item: Item): Option<string>
    requires !Throws(item) && Kept(item)
  {
    var content := Join(PartsOf(item), ' ');
    if RoleOf(item) == Some("user") then Some(UserPrefix + content)
    else if RoleOf(item) == Some("assistant") then Some(AssistantPrefix + content)
    else None
  }

  function RenderAll(kept: seq<Item>): (r: seq<Option<string>>)
    requires forall k :: 0 <= k < |kept| ==> !Throws(kept[k]) && Kept(kept[k])
    ensures |r| == |kept|
  {
    if kept == [] then [] else [Render(kept[0])] + RenderAll(kept[1..])
  }

  /** The second filter: the non-null values in order. */
  function DropNulls(xs: seq<Option<string>>): (r: seq<string>)
    ensures |r| <= |xs|
  {
    if xs == [] then [] else (if xs[0].Some? then [xs[0].value] else []) + DropNulls(xs[1..])
  }

  /** The `messages` pipeline: filter, map, filter; `None` when it throws. */
  function Messages(items: seq<Item>): Option<seq<string>>
  {
    match KeepItems(items)
    case None => None
    case Some(kept) => Some(DropNulls(RenderAll(kept)))
  }

  /** The turn an item contributes, read off the item in one step: a user or an
      assistant turn with message text; nothing otherwise. */
  function Turn(item: Item): (t: Option<string>)
  {
    match item
    case Record(Some(Message(Some(Author(Some(role))), Some(Content(Some(parts)))))) =>
      if role == "user" then Some("User: " + Join(parts, ' '))
      else if role == "assistant" then Some("Assistant: " + Join(parts, ' '))
      else None
    case _ => None
  }

  /** The reference reading of the pipeline: every item's turn, in order. */
  function Turns(items: seq<Item>): seq<string>
  {
    if items == [] then []
    else (if Turn(items[0]).Some? then [Turn(items[0]).value] else []) + Turns(items[1..])
  }

  /** The pipeline throws exactly when some item throws, and otherwise produces
      the items' turns in order. */
  lemma {:induction false} MessagesAreTurns(items: seq<Item>)
    ensures Messages(items).None? <==> exists k :: 0 <= k < |items| && Throws(items[k])
    ensures Messages(items).Some? ==> Messages(items).value == Turns(items)
  {
    if items != [] {
      var rest := items[1..];
      MessagesAreTurns(rest);
      assert forall k :: 1 <= k < |items| ==> items[k] == rest[k - 1];
      if !Throws(items[0]) && KeepItems(rest).Some? {
        var kept := KeepItems(rest).value;
        if Kept(items[0]) {
          assert RenderAll([items[0]] + kept) == [Render(items[0])] + RenderAll(kept) by {
            assert ([items[0]] + kept)[1..] == kept;
          }
          assert DropNulls([Render(items[0])] + RenderAll(kept))
                 == (if Render(items[0]).Some? then [Render(items[0]).value] else []) + DropNulls(RenderAll(kept)) by {
            assert ([Render(items[0])] + RenderAll(kept))[1..] == RenderAll(kept);
          }
          assert Render(items[0]) == Turn(items[0]);
        } else {
          assert Turn(items[0]).None?;
        }
      }
    }
  }

  lemma {:induction false} TurnsAppend(a: seq<Item>, b: seq<Item>)
    ensures Turns(a + b) == Turns(a) + Turns(b)
  {
    if a == [] {
      assert a + b == b;
    } else {
      assert (a + b)[0] == a[0];
      assert (a + b)[1..] == a[1..] + b;
      TurnsAppend(a[1..], b);
    }
  }

  /** Every turn begins with `User: ` or `Assistant: `, and there are at most as
      many turns as items. */
  lemma {:induction false} TurnsShape(items: seq<Item>)
    ensures |Turns(items)| <= |items|
    ensures forall k :: 0 <= k < |Turns(items)| ==>
              StartsWith(Turns(items)[k], UserPrefix) || StartsWith(Turns(items)[k], AssistantPrefix)
  {
    if items != [] {
      TurnsShape(items[1..]);
      var head := if Turn(items[0]).Some? then [Turn(items[0]).value] else [];
      assert Turns(items) == head + Turns(items[1..]);
      if Turn(items[0]).Some? {
        var t := Turn(items[0]).value;
        assert StartsWith(t, UserPrefix) || StartsWith(t, AssistantPrefix) by {
          var parts := PartsOf(items[0]);
          if t == "User: " + Join(parts, ' ') {
            assert t[..|UserPrefix|] == UserPrefix;
          } else {
            assert t[..|AssistantPrefix|] == AssistantPrefix;
          }
        }
      }
    }
  }

  /** The positions of the items that give a turn, in increasing order. */
  function TurnPositions(items: seq<Item>): (idx: seq<nat>)
    ensures forall k :: 0 <= k < |idx| ==> idx[k] < |items|
  {
    if items == [] then []
    else
      var tail := TurnPositions(items[1..]);
      (if Turn(items[0]).Some? then [0] else []) + seq(|tail|, k requires 0 <= k < |tail| => tail[k] + 1)
  }

  /** The turns are the images of the items at `TurnPositions`, one for one. */
  lemma {:induction false} TurnsAtPositions(items: seq<Item>)
    ensures |TurnPositions(items)| == |Turns(items)|
    ensures forall k :: 0 <= k < |TurnPositions(items)| ==>
              Turn(items[TurnPositions(items)[k]]) == Some(Turns(items)[k])
  {
    if items != [] {
      var rest := items[1..];
      TurnsAtPositions(rest);
      var idx := TurnPositions(items);
      var tail := TurnPositions(rest);
      var h := if Turn(items[0]).Some? then 1 else 0;
      assert Turns(items) == (if Turn(items[0]).Some? then [Turn(items[0]).value] else []) + Turns(rest);
      forall k | h <= k < |idx| ensures Turn(items[idx[k]]) == Some(Turns(items)[k]) {
        assert idx[k] == tail[k - h] + 1;
        assert items[idx[k]] == rest[tail[k - h]];
      }
    }
  }

  /** The positions strictly increase, so the turns keep the items' order. */
  lemma {:induction false} TurnPositionsIncrease(items: seq<Item>)
    ensures forall k, l :: 0 <= k < l < |TurnPositions(items)| ==> TurnPositions(items)[k] < TurnPositions(items)[l]
  {
    if items != [] {
      TurnPositionsIncrease(items[1..]);
    }
  }

  /** An item at no position gives no turn. */
  lemma {:induction false} OtherItemsGiveNoTurn(items: seq<Item>)
    ensures forall j :: 0 <= j < |items| && j !in TurnPositions(items) ==> Turn(items[j]).None?
  {
    if items != [] {
      var rest := items[1..];
      OtherItemsGiveNoTurn(rest);
      var idx := TurnPositions(items);
      var tail := TurnPositions(rest);
      var h := if Turn(items[0]).Some? then 1 else 0;
      forall j | 0 < j < |items| && j !in idx ensures Turn(items[j]).None? {
        forall k | 0 <= k < |tail| ensures tail[k] != j - 1 {
          assert idx[h + k] == tail[k] + 1;
        }
        assert items[j] == rest[j - 1];
      }
    }
  }

  /** System turns never reach the output, whatever their text. */
  lemma SystemTurnsDropped(parts: seq<string>)
    ensures Turns([Record(Some(Message(Some(Author(Some("system"))), Some(Content(Some(parts))))))]) == []
  {
  }

  /** A user turn with empty `parts` is kept and renders as `User: `. */
  lemma EmptyPartsKept()
    ensures Messages([Record(Some(Message(Some(Author(Some("user"))), Some(Content(Some([]))))))]) == Some([UserPrefix])
  {
    var u := Record(Some(Message(Some(Author(Some("user"))), Some(Content(Some([]))))));
    MessagesAreTurns([u]);
    assert Join([], ' ') == "";
    assert "User: " + "" == UserPrefix;
    assert Turn(u) == Some(UserPrefix);
    assert Turns([u]) == [UserPrefix] by { assert [u][1..] == []; }
  }

  /** A system, a user and an assistant turn give exactly two messages, the user's first. */
  lemma ThreeTurnExample(a: seq<string>, b: seq<string>, c: seq<string>)
    ensures var items := [Record(Some(Message(Some(Author(Some("system"))), Some(Content(Some(a)))))),
                          Record(Some(Message(Some(Author(Some("user"))), Some(Content(Some(b)))))),
                          Record(Some(Message(Some(Author(Some("assistant"))), Some(Content(Some(c))))))];
            Messages(items) == Some(["User: " + Join(b, ' '), "Assistant: " + Join(c, ' ')])
  {
    var s := Record(Some(Message(Some(Author(Some("system"))), Some(Content(Some(a))))));
    var u := Record(Some(Message(Some(Author(Some("user"))), Some(Content(Some(b))))));
    var v := Record(Some(Message(Some(Author(Some("assistant"))), Some(Content(Some(c))))));
    var items := [s, u, v];
    MessagesAreTurns(items);
    assert !Throws(items[0]) && !Throws(items[1]) && !Throws(items[2]);
    assert Turn(s) == None;
    assert Turn(u) == Some("User: " + Join(b, ' '));
    assert Turn(v) == Some("Assistant: " + Join(c, ' '));
    assert Turns([v]) == [Turn(v).value] by { assert [v][1..] == []; }
    assert Turns([u, v]) == [Turn(u).value, Turn(v).value] by { assert [u, v][1..] == [v]; }
    assert Turns(items) == Turns([u, v]) by { assert items[1..] == [u, v]; }
  }

  /** An item with message text and no author makes the whole pipeline throw,
      wherever it stands. */
  lemma MissingAuthorThrows(before: seq<Item>, parts: seq<string>, after: seq<Item>)
    ensures Messages(before + [Record(Some(Message(None, Some(Content(Some(parts))))))] + after).None?
  {
    var items := before + [Record(Some(Message(None, Some(Content(Some(parts))))))] + after;
    MessagesAreTurns(items);
    assert Throws(items[|before|]);
  }
}

=== FILE: remix_extract.dfy ===
/** Locating the conversation inside the page's hydration payload, as the
    fetchData route does it: the marker scan over the inline script bodies, and
    the capture of the `linear_conversation` array by the regular expression
    `"linear_conversation":\s*(\[[\s\S]*?\])(?=,\s*"has_user_editable_context")`. */
module RemixExtract {
  import opened Results
  import opened Strings

  const Marker := "window.__remixContext"
  const ArrayKey := "\"linear_conversation\":"
  const SiblingKey := "\"has_user_editable_context\""

  /** Script `k` contains the marker and no later script does. */
  predicate IsLastMarked(scripts: seq<string>, k: int) {
    && 0 <= k < |scripts|
    && Contains(scripts[k], Marker)
    && forall j :: k < j < |scripts| ==> !Contains(scripts[j], Marker)
  }

  /** The `$('script').each` scan: every script body holding the marker overwrites
      the one kept so far, so the last such body is selected; the empty string
      means there was none. */
  method SelectContext(scripts: seq<string>) returns (context: string)
    ensures context == [] <==> forall k :: 0 <= k < |scripts| ==> !Contains(scripts[k], Marker)
    ensures context != [] ==> exists k :: IsLastMarked(scripts, k) && context == scripts[k]
  {
    context := "";
    var i := 0;
    ghost var chosen := -1;
    while i < |scripts|
      invariant 0 <= i <= |scripts|
      invariant -1 <= chosen < i
      invariant chosen == -1 ==> context == [] && forall k :: 0 <= k < i ==> !Contains(scripts[k], Marker)
      invariant chosen >= 0 ==> context == scripts[chosen] && Contains(context, Marker)
      invariant chosen >= 0 ==> forall j :: chosen < j < i ==> !Contains(scripts[j], Marker)
    {
      var script := scripts[i];
      if script != [] && Contains(script, Marker) {
        context := script;
        chosen := i;
      }
      i := i + 1;
    }
    if chosen >= 0 {
      assert IsLastMarked(scripts, chosen);
    }
  }

  /** The literal `"linear_conversation":` starts at `p`. */
  predicate AnchorAt(s: string, p: int) {
    OccursAt(s, ArrayKey, p)
  }

  /** Where `\[` is tried after the anchor at `p`: past the greedy `\s*`. No
      shorter run of white space can be followed by `[`, so backtracking into
      `\s*` never yields another match. */
  function OpenAt(s: string, p: int): nat
    requires AnchorAt(s, p)
  {
    p + |ArrayKey| + SpaceRun(s, p + |ArrayKey|)
  }

  /** The lookahead `(?=,\s*"has_user_editable_context")` holds at `i`. */
  predicate LookaheadAt(s: string, i: int) {
    0 <= i < |s| && s[i] == ',' && OccursAt(s, SiblingKey, i + 1 + SpaceRun(s, i + 1))
  }

  /** `\]` followed by the lookahead matches at `e`. */
  predicate ClosesAt(s: string, e: int) {
    0 <= e < |s| && s[e] == ']' && LookaheadAt(s, e + 1)
  }

  /** The anchor at `p` is followed by `[`. */
  predicate OpensAt(s: string, p: int) {
    AnchorAt(s, p) && OpenAt(s, p) < |s| && s[OpenAt(s, p)] == '['
  }

  /** The expression matches when the engine starts at `p`. */
  predicate MatchesFrom(s: string, p: int) {
    OpensAt(s, p) && exists e :: OpenAt(s, p) < e < |s| && ClosesAt(s, e)
  }

  /** The capture of a match started at `p` ends at `e`: the lazy `[\s\S]*?` stops
      at the first `]` after the opening `[` that the lookahead accepts. */
  predicate CaptureSpan(s: string, p: int, e: int) {
    && OpensAt(s, p)
    && OpenAt(s, p) < e
    && ClosesAt(s, e)
    && forall k :: OpenAt(s, p) < k < e ==> !ClosesAt(s, k)
  }

  /** The first `e >= from` at which `\]` and the lookahead match. */
  function FindClose(s: string, from: nat): (r: Option<nat>)
    requires from <= |s|
    ensures r.Some? ==> from <= r.value < |s| && ClosesAt(s, r.value)
    ensures r.Some? ==> forall k :: from <= k < r.value ==> !ClosesAt(s, k)
    ensures r.None? ==> forall k :: from <= k < |s| ==> !ClosesAt(s, k)
    decreases |s| - from
  {
    if from == |s| then None
    else if ClosesAt(s, from) then Some(from)
    else FindClose(s, from + 1)
  }

  /** The search of `String.prototype.match`: the first start position at or after
      `p` from which the expression matches. */
  function MatchFrom(s: string, p: nat): (r: Option<nat>)
    requires p <= |s|
    ensures r.Some? ==> p <= r.value < |s| && MatchesFrom(s, r.value)
    ensures r.Some? ==> forall q :: p <= q < r.value ==> !MatchesFrom(s, q)
    ensures r.None? ==> forall q :: p <= q < |s| ==> !MatchesFrom(s, q)
    decreases |s| - p
  {
    if p == |s| then None
    else if OpensAt(s, p) && FindClose(s, OpenAt(s, p) + 1).Some? then
      var e := FindClose(s, OpenAt(s, p) + 1).value;
      assert OpenAt(s, p) < e < |s| && ClosesAt(s, e);
      Some(p)
    else
      assert !MatchesFrom(s, p) by {
        if OpensAt(s, p) {
          assert forall k :: OpenAt(s, p) + 1 <= k < |s| ==> !ClosesAt(s, k);
        }
      }
      MatchFrom(s, p + 1)
  }

  /** Where the capture of a match started at `q` ends. */
  function CloseOf(s: string, q: nat): (e: nat)
    requires q < |s| && MatchesFrom(s, q)
    ensures CaptureSpan(s, q, e) && e < |s|
  {
    var r := FindClose(s, OpenAt(s, q) + 1);
    assert r.Some?;
    r.value
  }

  /** Where the captured group of the leftmost match opens and closes. */
  function CaptureBounds(s: string): (r: Option<(nat, nat)>)
    ensures r.Some? ==> r.value.0 < r.value.1 < |s| && s[r.value.0] == '[' && ClosesAt(s, r.value.1)
  {
    match MatchFrom(s, 0)
    case None => None
    case Some(q) => Some((OpenAt(s, q), CloseOf(s, q)))
  }

  /** `linearConversationMatch[1]`: the captured array text of the leftmost match,
      or nothing when the expression does not match. */
  function Capture(s: string): Option<string>
  {
    match CaptureBounds(s)
    case None => None
    case Some((o, e)) => Some(s[o..e + 1])
  }

  /** The capture fails exactly when the expression matches from no position. */
  lemma CaptureFailsIffNoMatch(s: string)
    ensures Capture(s).None? <==> forall q :: 0 <= q < |s| ==> !MatchesFrom(s, q)
  {
    var m := MatchFrom(s, 0);
    if m.Some? {
      assert MatchesFrom(s, m.value);
      assert CaptureBounds(s).Some?;
    }
  }

  /** The bounds are taken at the match the search finds. */
  lemma BoundsAtMatch(s: string, q: nat)
    requires MatchFrom(s, 0) == Some(q)
    ensures q < |s| && MatchesFrom(s, q)
    ensures CaptureBounds(s) == Some((OpenAt(s, q), CloseOf(s, q)))
  {
  }

  /** The capture is the text between its bounds. */
  lemma CaptureOfBounds(s: string, o: nat, e: nat)
    requires CaptureBounds(s) == Some((o, e))
    ensures Capture(s) == Some(s[o..e + 1])
  {
  }

  /** A capture is the text from the `[` of the leftmost match to the first `]` after
      it that the lookahead accepts. */
  lemma CaptureIsLeftmostLazy(s: string)
    requires Capture(s).Some?
    ensures exists q, e :: && CaptureSpan(s, q, e) && Capture(s).value == s[OpenAt(s, q)..e + 1]
                           && forall q' :: 0 <= q' < q ==> !MatchesFrom(s, q')
  {
    var m := MatchFrom(s, 0);
    assert m.Some?;
    var q := m.value;
    BoundsAtMatch(s, q);
    var e := CloseOf(s, q);
    CaptureOfBounds(s, OpenAt(s, q), e);
    assert CaptureSpan(s, q, e);
  }

  /** `c` opens with `[`, closes with `]`, and occurs in `s` followed by `,`,
      optional white space and `"has_user_editable_context"`. */
  ghost predicate Bracketed(s: string, c: string) {
    && |c| >= 2 && c[0] == '[' && c[|c| - 1] == ']'
    && exists i :: OccursAt(s, c, i) && LookaheadAt(s, i + |c|)
  }

  /** A closing `]` is followed by the lookahead. */
  lemma ClosedIsFollowed(s: string, e: int)
    requires ClosesAt(s, e)
    ensures LookaheadAt(s, e + 1)
  {
  }

  /** The text from an opening `[` to a closing `]` is bracketed. */
  lemma SliceIsBracketed(s: string, o: nat, e: nat)
    requires o < e < |s| && s[o] == '[' && ClosesAt(s, e)
    ensures Bracketed(s, s[o..e + 1])
  {
    var c := s[o..e + 1];
    assert OccursAt(s, c, o);
    ClosedIsFollowed(s, e);
    assert o + |c| == e + 1;
  }

  /** A capture is bracketed: it opens with `[`, closes with `]`, and what follows
      it in the script is `,`, optional white space and `"has_user_editable_context"`. */
  lemma CaptureIsBracketed(s: string)
    requires Capture(s).Some?
    ensures Bracketed(s, Capture(s).value)
  {
    var bounds := CaptureBounds(s);
    assert bounds.Some?;
    var o := bounds.value.0;
    var e := bounds.value.1;
    assert o < e < |s| && s[o] == '[' && ClosesAt(s, e);
    SliceIsBracketed(s, o, e);
    assert Capture(s) == Some(s[o..e + 1]);
  }

  /** The closing search stops at the first accepted `]`. */
  lemma {:induction false} FindCloseAt(s: string, from: nat, e: nat)
    requires from <= e < |s| && ClosesAt(s, e)
    requires forall k :: from <= k < e ==> !ClosesAt(s, k)
    ensures FindClose(s, from) == Some(e)
    decreases e - from
  {
    if from < e {
      FindCloseAt(s, from + 1, e);
    }
  }

  /** The capture is lazy and not bracket-balanced: after `"linear_conversation":`,
      the text `[1]],"has_user_editable_context"` yields `[1]]`, because the first `]`
      is not followed by the sibling key and the second is. */
  lemma UnbalancedCaptureExample(s: string)
    requires s == ArrayKey + "[1]]," + SiblingKey
    ensures Capture(s) == Some("[1]]")
  {
    KeyOpensAt22(s);
    SiblingFollowsOnlyAt25(s);
    FindCloseAt(s, 23, 25);
    assert MatchFrom(s, 0) == Some(0);
    BoundsAtMatch(s, 0);
    assert CloseOf(s, 0) == 25;
    CaptureOfBounds(s, 22, 25);
    assert s[22..26] == "[1]]" by { assert |ArrayKey| == 22; }
  }

  /** In the example text the key is followed directly by `[`, at position 22. */
  lemma KeyOpensAt22(s: string)
    requires s == ArrayKey + "[1]]," + SiblingKey
    ensures OpensAt(s, 0) && OpenAt(s, 0) == 22
  {
    assert |ArrayKey| == 22;
    assert OccursAt(s, ArrayKey, 0);
    assert s[22] == '[';
    assert SpaceRun(s, 22) == 0;
  }

  /** In the example text only the `]` at position 25 is followed by the sibling key. */
  lemma SiblingFollowsOnlyAt25(s: string)
    requires s == ArrayKey + "[1]]," + SiblingKey
    ensures !ClosesAt(s, 23) && !ClosesAt(s, 24) && ClosesAt(s, 25)
  {
    assert |ArrayKey| == 22;
    assert s[23] == '1' && s[24] == ']' && s[25] == ']' && s[26] == ',';
    assert OccursAt(s, SiblingKey, 27);
    assert SpaceRun(s, 27) == 0 by { assert s[27] == '"'; }
  }
}

=== FILE: results.dfy ===
/** The two shapes an outcome takes in the route models. */
module Results {

  /** A field that may be missing: `None` for an absent field. */
  datatype Option<+T> = None | Some(value: T)

  /** What a step produced, or what it threw or reported instead. */
  datatype Result<+R, +E> = Success(value: R) | Failure(error: E)
}

=== FILE: scrape_route.dfy ===
/** The PDF endpoint (`POST` in the scrape route): it validates the request body
    in a fixed order, has the headless browser load the page and print the
    synthesised document, and answers with the PDF under a sanitised file name.
    The browser and the URL parser are foreign; they enter as parameters. */
module ScrapeRoute {
  import opened Results
  import opened Strings
  import FileName
  import opened Document

  const AllowedPaperFormats := ["A4", "Letter", "Legal"]
  const DefaultPaperFormat := "A4"
  const NoContentMessage := "No content found on the page"
  const UnexpectedMessage := "An unexpected error occurred"

  /** The parsed JSON body, an object. `None` stands for an absent field; for `url`,
      `fileName` and `darkMode` a `null` behaves the same, but a `null`
      `paperFormat` does not and is not modelled. A body that parses to
      something other than an object is not modelled either. */
  datatype RequestBody = RequestBody(
    url: Option<string>, fileName: Option<string>,
    paperFormat: Option<string>, darkMode: Option<bool>)

  /** A value thrown by foreign code: an `Error` carrying its message, or any other value. */
  datatype Thrown = ErrorObject(message: string) | OtherValue

  /** The message the catch block reports for a thrown value. */
  function ErrorMessage(t: Thrown): string {
    match t
    case ErrorObject(m) => m
    case OtherValue => UnexpectedMessage
  }

  /** What `page.evaluate` sees on the loaded page: the text of its `<title>`
      element (absent when there is none) and its message elements in document order. */
  datatype Page = Page(titleText: Option<string>, elements: seq<Element>)

  datatype Margin = Margin(top: string, right: string, bottom: string, left: string)

  /** The options passed to `page.pdf`. */
  datatype PdfOptions = PdfOptions(format: string, printBackground: bool, margin: Margin)

  /** The headless browser seen from outside. `load` launches it and navigates to
      the url, waiting for the network to go idle; `printPdf` loads a document as page
      content and prints it. Each yields its result or the value it threw. */
  datatype Browser = Browser(
    load: string -> Result<Page, Thrown>,
    printPdf: (string, PdfOptions) -> Result<seq<bv8>, Thrown>)

  /** The arguments `generatePDF` works with once its defaults are applied. */
  datatype RenderOptions = RenderOptions(url: string, paperFormat: string, darkMode: bool)

  /** The rendered PDF and the title it was made under. */
  datatype Artifact = Artifact(buffer: seq<bv8>, title: string)

  datatype Header = Header(name: string, value: string)

  datatype Response =
    | JsonError(status: nat, error: string)
    | PdfFile(status: nat, body: seq<bv8>, headers: seq<Header>)

  /** The three checks `POST` makes before any browser work, in their order: a url
      is required, it must parse, and a non-empty paper format must be allowed.
      On success the defaults are applied: an absent format becomes `A4`, an
      absent `darkMode` becomes false. */
  function Validate(body: RequestBody, isValidUrl: string -> bool): (r: Result<RenderOptions, string>)
    ensures !Supplied(body.url) ==> r == Failure("URL is required")
    ensures Supplied(body.url) && !isValidUrl(body.url.value) ==> r == Failure("Invalid URL format")
    ensures Supplied(body.url) && isValidUrl(body.url.value)
            && Supplied(body.paperFormat) && body.paperFormat.value !in AllowedPaperFormats
            ==> r == Failure("Invalid paper format")
    ensures r.Success? <==>
              Supplied(body.url) && isValidUrl(body.url.value)
              && (!Supplied(body.paperFormat) || body.paperFormat.value in AllowedPaperFormats)
    ensures r.Success? ==> r.value.url == body.url.value
    ensures r.Success? ==> r.value.darkMode == (body.darkMode == Some(true))
    ensures r.Success? && body.paperFormat.None? ==> r.value.paperFormat == DefaultPaperFormat
    ensures r.Success? && body.paperFormat.Some? ==> r.value.paperFormat == body.paperFormat.value
    ensures r.Success? ==> r.value.paperFormat in AllowedPaperFormats || r.value.paperFormat == []
  {
    if !Supplied(body.url) then Failure("URL is required")
    else if !isValidUrl(body.url.value) then Failure("Invalid URL format")
    else if Supplied(body.paperFormat) && body.paperFormat.value !in AllowedPaperFormats then
      Failure("Invalid paper format")
    else
      Success(RenderOptions(body.url.value, if body.paperFormat.Some? then body.paperFormat.value else DefaultPaperFormat,
                            body.darkMode == Some(true)))
  }

  /** The print settings: backgrounds on and a 20px margin on every side. */
  function PrintOptions(format: string): PdfOptions {
    PdfOptions(format, true, Margin("20px", "20px", "20px", "20px"))
  }

  /** The document synthesised for a loaded page. */
  function PageDocument(page: Page, darkMode: bool): string {
    HtmlDocument(PageTitle(page.titleText), Stylesheet(darkMode), WrapAll(page.elements))
  }

  /** `generatePDF`: load the page, refuse a page without message elements, print
      the synthesised document and return the PDF with the page title. */
  function GeneratePdf(opts: RenderOptions, browser: Browser): Result<Artifact, Thrown> {
    match browser.load(opts.url)
    case Failure(t) => Failure(t)
    case Success(page) => PrintPage(page, PageDocument(page, opts.darkMode), opts.paperFormat, browser.printPdf)
  }

  /** The part of `generatePDF` after the page is loaded, with the synthesised
      document given: refuse a page without message elements, else print. */
  function PrintPage(page: Page, document: string, format: string,
                     printPdf: (string, PdfOptions) -> Result<seq<bv8>, Thrown>): (r: Result<Artifact, Thrown>)
    ensures page.elements == [] ==> r == Failure(ErrorObject(NoContentMessage))
    ensures page.elements != [] ==> (r.Success? <==> printPdf(document, PrintOptions(format)).Success?)
    ensures page.elements != [] && printPdf(document, PrintOptions(format)).Failure? ==>
              r == Failure(printPdf(document, PrintOptions(format)).error)
    ensures r.Success? ==> page.elements != []
                           && r.value == Artifact(printPdf(document, PrintOptions(format)).value, PageTitle(page.titleText))
  {
    var title := PageTitle(page.titleText);
    var content := WrapAll(page.elements);
    if content == [] then Failure(ErrorObject(NoContentMessage))
    else
      match printPdf(document, PrintOptions(format))
      case Failure(t) => Failure(t)
      case Success(buffer) => Success(Artifact(buffer, if title != [] then title else DefaultTitle))
  }

  /** `generatePDF` passes on what the browser threw while loading, refuses a
      page without message elements before printing anything, and passes on
      what the printer threw. */
  lemma GeneratePdfRefuses(opts: RenderOptions, browser: Browser)
    ensures browser.load(opts.url).Failure? ==> GeneratePdf(opts, browser) == Failure(browser.load(opts.url).error)
    ensures browser.load(opts.url).Success? && browser.load(opts.url).value.elements == [] ==>
              GeneratePdf(opts, browser) == Failure(ErrorObject(NoContentMessage))
    ensures var loaded := browser.load(opts.url);
            loaded.Success? && loaded.value.elements != []
            && browser.printPdf(PageDocument(loaded.value, opts.darkMode), PrintOptions(opts.paperFormat)).Failure? ==>
              GeneratePdf(opts, browser)
              == Failure(browser.printPdf(PageDocument(loaded.value, opts.darkMode), PrintOptions(opts.paperFormat)).error)
  {
  }

  /** A page that loads with message elements and prints gives the PDF the printer
      made, under the page's title. */
  lemma GeneratePdfRenders(opts: RenderOptions, browser: Browser)
    ensures var loaded := browser.load(opts.url);
            loaded.Success? && loaded.value.elements != []
            && browser.printPdf(PageDocument(loaded.value, opts.darkMode), PrintOptions(opts.paperFormat)).Success? ==>
              GeneratePdf(opts, browser)
              == Success(Artifact(browser.printPdf(PageDocument(loaded.value, opts.darkMode), PrintOptions(opts.paperFormat)).value,
                                  PageTitle(loaded.value.titleText)))
  {
  }

  /** A rendered PDF is what the printer made of the synthesised document of a
      page that has message elements, printed with the requested format. */
  lemma GeneratePdfPrintsPage(opts: RenderOptions, browser: Browser)
    requires GeneratePdf(opts, browser).Success?
    ensures browser.load(opts.url).Success?
    ensures browser.load(opts.url).value.elements != []
    ensures browser.printPdf(PageDocument(browser.load(opts.url).value, opts.darkMode), PrintOptions(opts.paperFormat))
            == Success(GeneratePdf(opts, browser).value.buffer)
  {
  }

  /** A rendered PDF carries the page's title. */
  lemma GeneratePdfTitle(opts: RenderOptions, browser: Browser)
    requires GeneratePdf(opts, browser).Success?
    ensures browser.load(opts.url).Success?
    ensures GeneratePdf(opts, browser).value.title == PageTitle(browser.load(opts.url).value.titleText)
  {
  }

  /** The string the download name is made from: the supplied file name when
      there is one, else the title, or the default title when that is empty. */
  function NameSource(fileName: Option<string>, title: string): string {
    if Supplied(fileName) then fileName.value
    else if title != [] then title
    else DefaultTitle
  }

  function DownloadName(fileName: Option<string>, title: string): string {
    FileName.SanitizeFileName(NameSource(fileName, title))
  }

  function PdfHeaders(name: string, length: nat): seq<Header> {
    [Header("Content-Type", "application/pdf"),
     Header("Content-Disposition", "attachment; filename=\"" + name + "\""),
     Header("Content-Length", Decimal(length))]
  }

  /** `POST`: a body that is not JSON and every thrown failure answer 500 with the
      failure's message; a failed validation answers 400 with its message; a
      rendered PDF answers 200 with the download headers. */
  function Post(request: Result<RequestBody, Thrown>, isValidUrl: string -> bool, browser: Browser): (r: Response)
    ensures request.Failure? ==> r == JsonError(500, ErrorMessage(request.error))
    ensures request.Success? && Validate(request.value, isValidUrl).Failure? ==>
              r == JsonError(400, Validate(request.value, isValidUrl).error)
    ensures request.Success? && Validate(request.value, isValidUrl).Success?
            && GeneratePdf(Validate(request.value, isValidUrl).value, browser).Failure? ==>
              r == JsonError(500, ErrorMessage(GeneratePdf(Validate(request.value, isValidUrl).value, browser).error))
    ensures r.JsonError? ==> r.status == 400 || r.status == 500
    ensures r.JsonError? && r.status == 400 <==> request.Success? && Validate(request.value, isValidUrl).Failure?
    ensures r.PdfFile? <==>
              && request.Success? && Validate(request.value, isValidUrl).Success?
              && GeneratePdf(Validate(request.value, isValidUrl).value, browser).Success?
    ensures r.PdfFile? ==>
              var artifact := GeneratePdf(Validate(request.value, isValidUrl).value, browser).value;
              && r.status == 200
              && r.body == artifact.buffer
              && r.headers == PdfHeaders(DownloadName(request.value.fileName, artifact.title), |artifact.buffer|)
  {
    match request
    case Failure(t) => JsonError(500, ErrorMessage(t))
    case Success(body) =>
      match Validate(body, isValidUrl)
      case Failure(message) => JsonError(400, message)
      case Success(opts) =>
        match GeneratePdf(opts, browser)
        case Failure(t) => JsonError(500, ErrorMessage(t))
        case Success(artifact) =>
          var name := DownloadName(body.fileName, artifact.title);
          PdfFile(200, artifact.buffer, PdfHeaders(name, |artifact.buffer|))
  }

  /** A request that fails validation never reaches the browser: its answer is
      the same whatever the browser would do, and it is a 400. */
  lemma RejectedRequestNeverRenders(body: RequestBody, isValidUrl: string -> bool, b1: Browser, b2: Browser)
    requires Validate(body, isValidUrl).Failure?
    ensures Post(Success(body), isValidUrl, b1) == Post(Success(body), isValidUrl, b2)
    ensures Post(Success(body), isValidUrl, b1).JsonError? && Post(Success(body), isValidUrl, b1).status == 400
  {
  }

  /** The headers of a PDF answer (whose name is the sanitised `NameSource`):
      the file name in the disposition is a sanitised name (so it ends in `.pdf` and holds no quote that could end the
      header value early), and the length header reads back as the body length. */
  lemma PdfHeadersDescribeFile(source: string, length: nat)
    ensures var headers := PdfHeaders(FileName.SanitizeFileName(source), length);
            && |headers| == 3
            && headers[0] == Header("Content-Type", "application/pdf")
            && headers[1].name == "Content-Disposition"
            && headers[2].name == "Content-Length"
            && (forall k :: 0 <= k < |headers[2].value| ==> IsDigit(headers[2].value[k]))
            && DecimalValue(headers[2].value) == length
    ensures var headers := PdfHeaders(FileName.SanitizeFileName(source), length);
            exists name :: headers[1].value == "attachment; filename=\"" + name + "\""
                           && EndsWith(name, FileName.PdfSuffix)
                           && (forall k :: 0 <= k < |name| ==> name[k] != '"')
                           && |name| <= FileName.MaxFileNameLength + |FileName.PdfSuffix|
  {
    DecimalRoundTrip(length);
    var name := FileName.SanitizeFileName(source);
    var headers := PdfHeaders(name, length);
    assert headers[1].value == "attachment; filename=\"" + name + "\"";
    assert forall k :: 0 <= k < |name| ==> name[k] != '"' by {
      forall k | 0 <= k < |name| ensures name[k] != '"' {
        assert FileName.IsAllowed(name[k]);
      }
    }
  }

  /** The download name follows the request's file name when it gives one and
      the title otherwise. The title of a rendered PDF is never empty, so the
      fallback to the default title in `POST` is never taken. */
  lemma DownloadNameOfTitle(fileName: Option<string>, title: string)
    requires title != []
    ensures Supplied(fileName) ==> DownloadName(fileName, title) == FileName.SanitizeFileName(fileName.value)
    ensures !Supplied(fileName) ==> DownloadName(fileName, title) == FileName.SanitizeFileName(title)
  {
  }

  /** Asking for `My Report!!.txt` downloads `My_Report__.txt.pdf`. */
  lemma CustomFileNameExample(fileName: Option<string>, title: string, length: nat)
    requires fileName == Some("My Report!!.txt")
    ensures PdfHeaders(DownloadName(fileName, title), length)[1] ==
              Header("Content-Disposition", "attachment; filename=\"" + "My_Report__.txt.pdf" + "\"")
  {
    var source := NameSource(fileName, title);
    assert source == "My Report!!.txt";
    FileName.SanitizeExample(source);
    var name := DownloadName(fileName, title);
    assert name == "My_Report__.txt.pdf";
  }
}

=== FILE: strings.dfy ===
/** String primitives with the meaning JavaScript gives them: white space as matched
    by the regular-expression class `\s` and removed by `String.prototype.trim`,
    `split`/`join` on one separator character, and the decimal rendering of a
    non-negative integer by `Number.prototype.toString`. */
module Strings {
  import opened Results

  /** JavaScript truthiness of an optional string: present and non-empty. */
  predicate Supplied(s: Option<string>) {
    s.Some? && s.value != []
  }

  /** White space in the sense of ECMAScript: the WhiteSpace code points (TAB, VT,
      FF, SPACE, NBSP, ZWNBSP and the Zs category) and the LineTerminator code
      points (LF, CR, LS, PS). */
  predicate IsSpace(c: char) {
    || c == '\t' || c == '\n' || c == '\U{000B}' || c == '\U{000C}' || c == '\r'
    || c == ' ' || c == '\U{00A0}' || c == '\U{1680}'
    || ('\U{2000}' <= c <= '\U{200A}')
    || c == '\U{2028}' || c == '\U{2029}' || c == '\U{202F}' || c == '\U{205F}'
    || c == '\U{3000}' || c == '\U{FEFF}'
  }

  /** The characters the regular-expression `.` does not match (no `s` flag). */
  predicate IsLineTerminator(c: char) {
    c == '\n' || c == '\r' || c == '\U{2028}' || c == '\U{2029}'
  }

  predicate StartsWith(s: string, prefix: string) {
    |prefix| <= |s| && s[..|prefix|] == prefix
  }

  predicate EndsWith(s: string, suffix: string) {
    |suffix| <= |s| && s[|s| - |suffix|..] == suffix
  }

  /** `pattern` occurs in `s` starting at index `i`. */
  predicate OccursAt(s: string, pattern: string, i: int) {
    0 <= i && i + |pattern| <= |s| && s[i..i + |pattern|] == pattern
  }

  /** `String.prototype.includes`. */
  predicate Contains(s: string, pattern: string) {
    exists i | 0 <= i <= |s| - |pattern| :: OccursAt(s, pattern, i)
  }

  /** The length of the longest run of white space in `s` that starts at `from`:
      what a greedy `\s*` consumes there. */
  function SpaceRun(s: string, from: nat): (n: nat)
    requires from <= |s|
    ensures from + n <= |s|
    ensures forall k {:trigger IsSpace(s[k])} :: from <= k < from + n ==> IsSpace(s[k])
    ensures from + n == |s| || !IsSpace(s[from + n])
    decreases |s| - from
  {
    if from == |s| || !IsSpace(s[from]) then 0 else 1 + SpaceRun(s, from + 1)
  }

  /** The length of the longest run of white space that ends `s[..upto]`. */
  function TrailingSpaceRun(s: string, upto: nat): (n: nat)
    requires upto <= |s|
    ensures n <= upto
    ensures forall k {:trigger IsSpace(s[k])} :: upto - n <= k < upto ==> IsSpace(s[k])
    ensures n == upto || !IsSpace(s[upto - n - 1])
  {
    if upto == 0 || !IsSpace(s[upto - 1]) then 0 else 1 + TrailingSpaceRun(s, upto - 1)
  }

  /** `String.prototype.trim`: the result is the slice of `s` left after removing
      white space at both ends, and it neither begins nor ends with white space. */
  function Trim(s: string): (r: string)
    ensures exists i, j :: 0 <= i <= j <= |s| && r == s[i..j]
                           && (forall k :: 0 <= k < i ==> IsSpace(s[k]))
                           && (forall k :: j <= k < |s| ==> IsSpace(s[k]))
    ensures r != [] ==> !IsSpace(r[0]) && !IsSpace(r[|r| - 1])
  {
    var i := SpaceRun(s, 0);
    var n := TrailingSpaceRun(s, |s|);
    var j := if i <= |s| - n then |s| - n else i;
    assert j < |s| ==> IsSpace(s[j]) || j == |s| - n;
    s[i..j]
  }

  /** A string that neither begins nor ends with white space is its own trim. */
  lemma TrimUnpadded(s: string)
    requires s != [] ==> !IsSpace(s[0]) && !IsSpace(s[|s| - 1])
    ensures Trim(s) == s
  {
    assert SpaceRun(s, 0) == 0;
    assert TrailingSpaceRun(s, |s|) == 0;
    assert s[0..|s|] == s;
  }

  /** `s.split(sep)` for a one-character separator: the maximal pieces of `s`
      between occurrences of `sep`; an empty `s` yields one empty piece. */
  function Split(s: string, sep: char): (parts: seq<string>)
    ensures |parts| == multiset(s)[sep] + 1
    ensures forall k :: 0 <= k < |parts| ==> sep !in parts[k]
    decreases |s|
  {
    if sep !in s then
      [s]
    else
      var i := IndexOf(s, sep);
      CountPastFirst(s, i, sep);
      [s[..i]] + Split(s[i + 1..], sep)
  }

  /** The separators of `s` are its first one and those after it. */
  lemma CountPastFirst(s: string, i: nat, sep: char)
    requires i < |s| && s[i] == sep && sep !in s[..i]
    ensures multiset(s)[sep] == multiset(s[i + 1..])[sep] + 1
  {
    assert s == s[..i] + [sep] + s[i + 1..];
    assert multiset(s) == multiset(s[..i] + [sep] + s[i + 1..]);
    assert multiset(s) == multiset(s[..i]) + multiset{sep} + multiset(s[i + 1..]);
  }

  /** The index of the first occurrence of `c` in `s`. */
  function IndexOf(s: string, c: char): (i: nat)
    requires c in s
    ensures i < |s| && s[i] == c && c !in s[..i]
  {
    if s[0] == c then 0 else
      assert c in s[1..];
      var j := IndexOf(s[1..], c);
      assert s[..j + 1] == [s[0]] + s[1..][..j];
      1 + j
  }

  /** `parts.join(sep)` for a one-character separator. */
  function Join(parts: seq<string>, sep: char): string
  {
    if |parts| == 0 then ""
    else if |parts| == 1 then parts[0]
    else parts[0] + [sep] + Join(parts[1..], sep)
  }

  /** Joining the pieces of a split restores the string. */
  lemma {:induction false} JoinSplit(s: string, sep: char)
    ensures Join(Split(s, sep), sep) == s
    decreases |s|
  {
    if sep in s {
      var i := IndexOf(s, sep);
      var rest := s[i + 1..];
      JoinSplit(rest, sep);
      var parts := Split(s, sep);
      assert parts == [s[..i]] + Split(rest, sep);
      assert parts[1..] == Split(rest, sep);
      assert Join(parts, sep) == s[..i] + [sep] + Join(Split(rest, sep), sep);
      assert s == s[..i] + [sep] + rest;
    } else {
      assert Split(s, sep) == [s];
    }
  }

  /** Splitting a join restores the pieces, provided there is at least one piece
      and no piece contains the separator. */
  lemma {:induction false} SplitJoin(parts: seq<string>, sep: char)
    requires |parts| >= 1
    requires forall k :: 0 <= k < |parts| ==> sep !in parts[k]
    ensures Split(Join(parts, sep), sep) == parts
    decreases |parts|
  {
    if |parts| > 1 {
      var tail := Join(parts[1..], sep);
      assert Join(parts, sep) == parts[0] + [sep] + tail;
      SplitAtFirst(parts[0], tail, sep);
      SplitJoin(parts[1..], sep);
      assert parts == [parts[0]] + parts[1..];
    }
  }

  /** Splitting at the first separator peels off the piece before it. */
  lemma SplitAtFirst(head: string, tail: string, sep: char)
    requires sep !in head
    ensures Split(head + [sep] + tail, sep) == [head] + Split(tail, sep)
  {
    var s := head + [sep] + tail;
    assert s[|head|] == sep;
    var i := IndexOf(s, sep);
    assert s[..|head|] == head;
    assert i == |head|;
    assert s[i + 1..] == tail;
  }

  /** A decimal digit character. */
  predicate IsDigit(c: char) {
    '0' <= c <= '9'
  }

  function DigitChar(d: nat): (c: char)
    requires d < 10
    ensures IsDigit(c)
  {
    ['0', '1', '2', '3', '4', '5', '6', '7', '8', '9'][d]
  }

  function DigitValue(c: char): (d: nat)
    requires IsDigit(c)
    ensures d < 10 && DigitChar(d) == c
  {
    (c as int - '0' as int) as nat
  }

  /** `n.toString()` for a non-negative integer: its decimal numeral. */
  function Decimal(n: nat): (r: string)
    ensures |r| >= 1
    ensures forall k :: 0 <= k < |r| ==> IsDigit(r[k])
    ensures |r| > 1 ==> r[0] != '0'
  {
    if n < 10 then [DigitChar(n)] else Decimal(n / 10) + [DigitChar(n % 10)]
  }

  /** The number a string of decimal digits denotes. */
  function DecimalValue(s: string): nat
    requires forall k :: 0 <= k < |s| ==> IsDigit(s[k])
  {
    if s == [] then 0 else 10 * DecimalValue(s[..|s| - 1]) + DigitValue(s[|s| - 1])
  }

  /** Reading back the decimal numeral of `n` gives `n`. */
  lemma {:induction false} DecimalRoundTrip(n: nat)
    ensures DecimalValue(Decimal(n)) == n
  {
    var r := Decimal(n);
    if n < 10 {
      assert r[..|r| - 1] == [];
    } else {
      DecimalRoundTrip(n / 10);
      assert r[..|r| - 1] == Decimal(n / 10);
    }
  }

  /** The concatenation of a sequence of pieces. */
  function Concat(pieces: seq<string>): string
  {
    if pieces == [] then "" else pieces[0] + Concat(pieces[1..])
  }

  lemma {:induction false} ConcatAppend(a: seq<string>, b: seq<string>)
    ensures Concat(a + b) == Concat(a) + Concat(b)
  {
    if a == [] {
      assert a + b == b;
    } else {
      assert (a + b)[1..] == a[1..] + b;
      ConcatAppend(a[1..], b);
    }
  }

  /** Piece `k` of a concatenation sits right after the pieces before it. */
  lemma PieceOccurs(pieces: seq<string>, k: nat)
    requires k < |pieces|
    ensures OccursAt(Concat(pieces), pieces[k], |Concat(pieces[..k])|)
    ensures |Concat(pieces[..k])| + |pieces[k]| == |Concat(pieces[..k + 1])|
  {
    assert pieces == pieces[..k] + [pieces[k]] + pieces[k + 1..];
    ConcatAppend(pieces[..k] + [pieces[k]], pieces[k + 1..]);
    ConcatAppend(pieces[..k], [pieces[k]]);
    assert Concat([pieces[k]]) == pieces[k] by { assert [pieces[k]][1..] == []; }
    assert pieces[..k + 1] == pieces[..k] + [pieces[k]];
    var s := Concat(pieces);
    assert s == Concat(pieces[..k]) + pieces[k] + Concat(pieces[k + 1..]);
    assert s[|Concat(pieces[..k])|..|Concat(pieces[..k])| + |pieces[k]|] == pieces[k];
  }

  /** Every piece of a concatenation occurs in it. */
  lemma PieceContained(pieces: seq<string>, k: nat)
    requires k < |pieces|
    ensures Contains(Concat(pieces), pieces[k])
  {
    PieceOccurs(pieces, k);
  }

  /** A concatenation begins with its first piece and ends with its last. */
  lemma ConcatEnds(pieces: seq<string>)
    requires |pieces| >= 1
    ensures StartsWith(Concat(pieces), pieces[0])
    ensures EndsWith(Concat(pieces), pieces[|pieces| - 1])
  {
    ConcatStarts(pieces);
    ConcatFinishes(pieces);
  }

  lemma ConcatStarts(pieces: seq<string>)
    requires |pieces| >= 1
    ensures StartsWith(Concat(pieces), pieces[0])
  {
    var c := Concat(pieces);
    assert c == pieces[0] + Concat(pieces[1..]);
    assert c[..|pieces[0]|] == pieces[0];
  }

  lemma ConcatFinishes(pieces: seq<string>)
    requires |pieces| >= 1
    ensures EndsWith(Concat(pieces), pieces[|pieces| - 1])
  {
    var n := |pieces|;
    var front, last := pieces[..n - 1], pieces[n - 1];
    assert front + [last] == pieces;
    ConcatAppend(front, [last]);
    ConcatSingle(last);
    AppendEndsWith(Concat(front), last);
  }

  lemma ConcatSingle(piece: string)
    ensures Concat([piece]) == piece
  {
    assert [piece][1..] == [];
  }

  lemma AppendEndsWith(s: string, suffix: string)
    ensures EndsWith(s + suffix, suffix)
  {
    assert (s + suffix)[|s|..] == suffix;
  }

  /** Two prefixes of one string agree wherever both are defined. */
  lemma PrefixesAgree(s: string, p: string, q: string, k: nat)
    requires StartsWith(s, p) && StartsWith(s, q)
    requires k < |p| && k < |q|
    ensures p[k] == q[k]
  {
    assert s[..|p|][k] == s[k] == s[..|q|][k];
  }
}
